=== FILE: README.md ===
# YAPatch uname spoofing, hidden paths and root shell, in Dafny

This project models the logic under YAPatch's "hide" and "uname" screens and
the privileged shell they run on. YAPatch is an Android root manager built on
KernelPatch.

- `UnameViewModel` keeps six spoofed `uname()` fields. Each change goes first
  to the kernel through the native bridge and then to a `key=value` file.
  The file is written by eight shell commands, with every value
  single-quote-escaped. It is read back by a fold that keeps the last value
  for each key.
- `HideViewModel` keeps a list of paths hidden from unprivileged processes,
  plus a second copy of the uname fields. It writes both files through the
  root shell with no escaping at all, and reads them back with `cat`.
- `YAPatchCli.kt` builds the root shell. It tries four argv candidates in
  order; the first that spawns wins. It keeps a default shell and a
  global-mount shell, replaces the default one on `refresh`, and builds the
  `apd` command lines used for module management.

The root shell's effect on files is modelled by a small POSIX shell
(`PosixShell`). It tokenizes a command line with blanks, single quotes,
backslash escapes and the `>`/`>>` redirections of sections 2.2.1, 2.2.2,
2.7.2 and 2.7.3 of the POSIX Shell Command Language (IEEE Std 1003.1). It then runs
`echo` with redirection against a file map; any other command leaves the
files alone. A command line it does not understand has no result in the
model (`None`), and neither does a batch that contains one.

Reading files back uses `BufferedReader.readLine` line splitting (`Lines`).
Kotlin's `trim`/`isBlank` whitespace set is in `Text`, `trimIndent` in
`Indent`, and `Int.toString` in `Decimal`.

Each view-model operation is a pure function from the screen state to a
`Step`. A `Step` holds three things:

- the new state;
- the native calls made, each with its arguments;
- the shell job submitted, if any.

The bridge's answer (`Outcome`: a result code or an exception message) is a
parameter. So is an exception from the shell, and so is whether a spawn
succeeds.

Points of the code's behaviour that the model keeps as written:

- **Duplicates.** `addHideFile` appends a path even if it is already listed.
- **Hide-list save.** The save does not escape anything and runs no
  `chown`/`chmod`: each path is pasted between single quotes as is.
- **Shell acquisition.** The last `sh` attempt is unguarded, so its failure
  reaches the caller.
- **Session creation.** Both shells are built when the `YAPatchCli` object is
  initialised.
- **Save failures.** An `Exception` thrown inside a save's `try` block
  before the job is submitted means no command runs. `UnameViewModel` and
  `saveHideFilesConfig` report it as "Failed to save uname config: …" and
  "Failed to save hide files config: …"; `HideViewModel`'s uname write only
  logs it and writes nothing.

## Model

| member | source | states |
|---|---|---|
| PosixShell.Escape | app/src/main/java/me/yervant/yapatch/ui/viewmodel/UnameViewModel.kt:33-35 | every `'` becomes `'\''`; the length grows by exactly 3 per quote, and a string without quotes comes back unchanged |
| PosixShell.EscapeAppend | app/src/main/java/me/yervant/yapatch/ui/viewmodel/UnameViewModel.kt:33-35 | escaping works character by character: escaping a concatenation concatenates the escapes |
| PosixShell.QuotedScansAs | app/src/main/java/me/yervant/yapatch/ui/viewmodel/UnameViewModel.kt:33-35 | for every string `s`, the shell word `'` + escape(`s`) + `'` is read back by POSIX quote removal as exactly `s`, followed by any blank or redirection |
| PosixShell.ExecEchoRedirect | app/src/main/java/me/yervant/yapatch/ui/viewmodel/UnameViewModel.kt:226-231 | `echo <word> > <file>` / `>> <file>` stores the word's text plus a newline, truncating or appending, provided the text is not an option word (`-` followed only by `n`, `e`, `E`) and has no backslash |
| PosixShell.EchoOptionForms | app/src/main/java/me/yervant/yapatch/ui/viewmodel/HideViewModel.kt:214-216 | `-e`, `-E`, `-ne` and `-n` followed by another option word get no reading in the model; `-n` alone drops the newline, and a word like `-x` is printed as text |
| PosixShell.ExecEchoEmpty | app/src/main/java/me/yervant/yapatch/ui/viewmodel/HideViewModel.kt:214 | `echo -n > <file>` leaves the file empty |
| PosixShell.ExecOtherCommand | app/src/main/java/me/yervant/yapatch/ui/viewmodel/UnameViewModel.kt:232-233 | a three-word command other than `echo` (the `chown` and `chmod` lines) leaves every file's contents as they were |
| PosixShell.ExecBatchAppend | app/src/main/java/me/yervant/yapatch/ui/viewmodel/UnameViewModel.kt:235 | running a batch in two parts equals running it whole; a first part with no result in the model leaves the whole batch without one |
| Text.TrimIdempotent | app/src/main/java/me/yervant/yapatch/ui/viewmodel/UnameViewModel.kt:122-123 | trimming an already trimmed string changes nothing |
| Lines.ReadLinesTerminated | app/src/main/java/me/yervant/yapatch/ui/viewmodel/UnameViewModel.kt:118 | reading back lines that were each written with a trailing newline gives exactly those lines, provided none contains a line terminator |
| Indent.TrimIndentBlock | app/src/main/java/me/yervant/yapatch/ui/viewmodel/HideViewModel.kt:294-301 | `trimIndent` applied to a raw string with a blank first and last line and a uniformly indented body gives the body lines joined by newlines |
| Decimal.IntToStringRoundTrip | app/src/main/java/me/yervant/yapatch/ui/viewmodel/UnameViewModel.kt:162 | the decimal text of a result code parses back to the same code |
| Decimal.IntToStringInjective | app/src/main/java/me/yervant/yapatch/ui/viewmodel/UnameViewModel.kt:162 | two distinct result codes print differently |
| Uname.FieldOf | app/src/main/java/me/yervant/yapatch/ui/viewmodel/UnameViewModel.kt:23-28 | a code names a field exactly when it lies in 0x1001..0x1006 |
| Uname.FieldCodeBijection | app/src/main/java/me/yervant/yapatch/ui/viewmodel/UnameViewModel.kt:23-28 | the field constants and the code dispatch are inverse to each other |
| Uname.FieldKeyBijection | app/src/main/java/me/yervant/yapatch/ui/viewmodel/UnameViewModel.kt:124-131 | the parser's key dispatch and the six stored key names are inverse to each other |
| Uname.SetByCode | app/src/main/java/me/yervant/yapatch/ui/viewmodel/UnameViewModel.kt:149-156 | only the field the code names takes the new value; every other field, and every field for an unknown code, keeps its value |
| Uname.ValueByCode | app/src/main/java/me/yervant/yapatch/ui/viewmodel/UnameViewModel.kt:178-186 | a known code reads its field's current value; an unknown code reads as the empty string |
| Uname.ValueAfterSet | app/src/main/java/me/yervant/yapatch/ui/viewmodel/UnameViewModel.kt:149-156 | after setting a known code, reading it gives the value set; an unknown code still reads as "" |
| Uname.ParseLine | app/src/main/java/me/yervant/yapatch/ui/viewmodel/UnameViewModel.kt:119-123 | a line yields an entry exactly when it is not blank and contains `=`; the key has no `=` and both key and value are trimmed |
| Uname.SplitAtFirstEquals | app/src/main/java/me/yervant/yapatch/ui/viewmodel/UnameViewModel.kt:120-123 | `k=v` with no `=` in `k` splits into trimmed `k` and trimmed `v`, however many `=` the value holds |
| Uname.ParseLastWins | app/src/main/java/me/yervant/yapatch/ui/viewmodel/UnameViewModel.kt:117-135 | for every field, the fold from the all-empty config yields the value of the last line carrying that field's key, or "" when no line does |
| Uname.ParseIgnores | app/src/main/java/me/yervant/yapatch/ui/viewmodel/UnameViewModel.kt:119-131 | a blank line, a line without `=`, or a line with an unknown key changes nothing |
| Uname.ParseConfigLines | app/src/main/java/me/yervant/yapatch/ui/viewmodel/UnameViewModel.kt:117-135 | parsing the six `key=value` lines of a config with trimmed values gives back that config |
| Uname.ReadBackConfig | app/src/main/java/me/yervant/yapatch/ui/viewmodel/UnameViewModel.kt:118-135 | the six lines written with newlines and read back line by line parse to the original config, for values without surrounding whitespace or line terminators |
| Bridge.Failure | app/src/main/java/me/yervant/yapatch/ui/viewmodel/UnameViewModel.kt:162-168 | every failure message starts with "Failed to <action>" |
| Bridge.FailureInjective | app/src/main/java/me/yervant/yapatch/ui/viewmodel/UnameViewModel.kt:162-168 | the message determines the outcome: distinct codes, distinct exception messages, and a code versus an exception never print alike |
| UnameViewModel.SaveCommands | app/src/main/java/me/yervant/yapatch/ui/viewmodel/UnameViewModel.kt:225-234 | exactly eight commands: six `echo`s in field order, the first truncating and the rest appending, then `chown uid:uid`, then `chmod 600` |
| UnameViewModel.SaveWritesConfig | app/src/main/java/me/yervant/yapatch/ui/viewmodel/UnameViewModel.kt:225-235 | for values without backslashes, the batch succeeds on any file map and leaves the file holding exactly the six lines, each newline-terminated, whatever quotes or `=` the values contain; all other files are unchanged |
| UnameViewModel.LoadUnameConfigData | app/src/main/java/me/yervant/yapatch/ui/viewmodel/UnameViewModel.kt:95-141 | a missing file is created empty and reads as the all-empty config; an unreadable file or a read failure also gives it; otherwise each field is the last value for it in the file's lines |
| UnameViewModel.SaveThenLoad | app/src/main/java/me/yervant/yapatch/ui/viewmodel/UnameViewModel.kt:95-141 | saving and then loading gives back the config, for values without surrounding whitespace, line terminators or backslashes |
| UnameViewModel.SaveConfig | app/src/main/java/me/yervant/yapatch/ui/viewmodel/UnameViewModel.kt:220-243 | without a shell exception, the eight-command job for the current config is submitted and the error is kept; with one, no job runs and the error is "Failed to save uname config: <message>"; the fields never change |
| UnameViewModel.SaveUnameField | app/src/main/java/me/yervant/yapatch/ui/viewmodel/UnameViewModel.kt:143-173 | calls the bridge once; on success only the coded field changes, and either the file is rewritten with the error kept or, when the save throws, no job runs and the error is "Failed to save uname config: <message>"; on failure the fields stay and the error names the code or exception |
| UnameViewModel.ClearUnameField | app/src/main/java/me/yervant/yapatch/ui/viewmodel/UnameViewModel.kt:175-218 | on success the field becomes ""; a rewrite is due exactly when the code names a field whose prior value was non-empty, and it runs unless the save throws, which sets "Failed to save uname config: <message>"; otherwise the error is kept; on failure the error names the outcome |
| UnameViewModel.LoadConfig | app/src/main/java/me/yervant/yapatch/ui/viewmodel/UnameViewModel.kt:59-84 | the fields become the loaded config, the error is reset, and loading always ends |
| UnameViewModel.ClearError | app/src/main/java/me/yervant/yapatch/ui/viewmodel/UnameViewModel.kt:245-247 | the error is gone and the fields are untouched |
| UnameViewModel.SavedFieldPersists | app/src/main/java/me/yervant/yapatch/ui/viewmodel/UnameViewModel.kt:143-173 | after a successful set, running the job and reloading gives the screen's config, with the chosen field holding the new value |
| UnameViewModel.SecondClearWritesNothing | app/src/main/java/me/yervant/yapatch/ui/viewmodel/UnameViewModel.kt:189-203 | a second successful clear of the same field submits no write and changes no state |
| UnameViewModel.FailureThenClearError | app/src/main/java/me/yervant/yapatch/ui/viewmodel/UnameViewModel.kt:160-168 | a failed set or clear followed by clearError restores the prior error-free state exactly |
| UnameViewModel.SaveFailureNamesOutcome | app/src/main/java/me/yervant/yapatch/ui/viewmodel/UnameViewModel.kt:160-168 | two failed sets that show the same message had the same bridge outcome |
| HideViewModel.KeepPaths | app/src/main/java/me/yervant/yapatch/ui/viewmodel/HideViewModel.kt:106 | the filter keeps no more lines than it is given, and every kept entry is non-blank and trimmed |
| HideViewModel.KeepPathsOne | app/src/main/java/me/yervant/yapatch/ui/viewmodel/HideViewModel.kt:106 | on a single line the filter gives nothing for a blank line and the trimmed line otherwise; with KeepPathsAppend this fixes the filter on every output |
| HideViewModel.KeepPathsOnlyNonBlank | app/src/main/java/me/yervant/yapatch/ui/viewmodel/HideViewModel.kt:106 | every entry of the result is some non-blank output line, trimmed |
| HideViewModel.KeepPathsKeepsNonBlank | app/src/main/java/me/yervant/yapatch/ui/viewmodel/HideViewModel.kt:106 | every non-blank output line appears, trimmed, in the list |
| HideViewModel.KeepPathsAppend | app/src/main/java/me/yervant/yapatch/ui/viewmodel/HideViewModel.kt:106 | the filter works line by line in order: filtering a concatenation concatenates the filtered parts |
| HideViewModel.KeepPathsKeeps | app/src/main/java/me/yervant/yapatch/ui/viewmodel/HideViewModel.kt:106 | a list of non-blank trimmed paths passes through unchanged |
| HideViewModel.LoadHideFilesConfigData | app/src/main/java/me/yervant/yapatch/ui/viewmodel/HideViewModel.kt:101-114 | a successful `cat` gives its output filtered to non-blank lines, trimmed; a failed `cat` or an exception gives the empty list; the result is always a list of non-blank trimmed paths |
| HideViewModel.FilterThenParse | app/src/main/java/me/yervant/yapatch/ui/viewmodel/HideViewModel.kt:131-146 | pre-filtering to non-blank lines containing `=` does not change the fold, so this parser agrees with the other view model's |
| HideViewModel.LoadUnameConfigData | app/src/main/java/me/yervant/yapatch/ui/viewmodel/HideViewModel.kt:125-153 | a successful `cat` gives the last-value-wins fold over its lines; a failure or an exception gives the all-empty config |
| HideViewModel.HideSaveCommands | app/src/main/java/me/yervant/yapatch/ui/viewmodel/HideViewModel.kt:213-217 | 1 + n commands: `echo -n > cfg`, then `echo '<p>' >> cfg` for each entry in list order |
| HideViewModel.HideSaveThenLoad | app/src/main/java/me/yervant/yapatch/ui/viewmodel/HideViewModel.kt:209-224 | for paths without quotes, backslashes or line terminators that are not `echo` option words, the batch leaves exactly the list's lines in the file, and loading gives back the list |
| HideViewModel.QuoteInPathBreaksSave | app/src/main/java/me/yervant/yapatch/ui/viewmodel/HideViewModel.kt:216 | with no escaping, a path holding one `'` yields an `echo` line whose quotes do not balance, so the model's tokenizer gives it no reading (`None`) |
| HideViewModel.ContentIsLines | app/src/main/java/me/yervant/yapatch/ui/viewmodel/HideViewModel.kt:294-301 | the `trimIndent`ed template is the six `key=value` lines joined by newlines, for single-line values |
| HideViewModel.UnameSaveThenLoad | app/src/main/java/me/yervant/yapatch/ui/viewmodel/HideViewModel.kt:290-311 | the single unescaped `echo` writes the six lines, and `cat` plus the fold gives back the config, for values without quotes, backslashes, line terminators or surrounding whitespace |
| HideViewModel.SaveHideFiles | app/src/main/java/me/yervant/yapatch/ui/viewmodel/HideViewModel.kt:209-224 | without a shell exception, the save job for the current list is submitted and the state is unchanged; with one, no job runs and only the error changes, to "Failed to save hide files config: <message>" |
| HideViewModel.AddHideFile | app/src/main/java/me/yervant/yapatch/ui/viewmodel/HideViewModel.kt:155-182 | blank input does nothing; otherwise the trimmed path goes to the bridge; on success it is appended (even if already listed), the field is reset, loading is untouched, and the list is saved with the error kept, or, when the save throws, the error is "Failed to save hide files config: <message>"; on failure only the error changes |
| HideViewModel.RemoveFirst | app/src/main/java/me/yervant/yapatch/ui/viewmodel/HideViewModel.kt:190 | an absent path leaves the list as it was; a present one shortens it by exactly one |
| HideViewModel.RemoveFirstAt | app/src/main/java/me/yervant/yapatch/ui/viewmodel/HideViewModel.kt:190 | removal cuts out exactly the first position holding the path, keeping all other entries in order |
| HideViewModel.RemoveFirstMultiset | app/src/main/java/me/yervant/yapatch/ui/viewmodel/HideViewModel.kt:190 | exactly one copy of the path goes, and every other entry stays |
| HideViewModel.RemoveUndoesFreshAdd | app/src/main/java/me/yervant/yapatch/ui/viewmodel/HideViewModel.kt:163-190 | removing a path that was appended to a list not containing it gives back the list |
| HideViewModel.RemoveHideFile | app/src/main/java/me/yervant/yapatch/ui/viewmodel/HideViewModel.kt:184-207 | calls the bridge once; on success the first occurrence goes, loading is untouched, and the list is saved with the error kept, or, when the save throws, the error is "Failed to save hide files config: <message>"; on failure the list stays and the error names the outcome |
| HideViewModel.SaveUnameField | app/src/main/java/me/yervant/yapatch/ui/viewmodel/HideViewModel.kt:226-256 | on success only the coded field changes and everything else in the state (the error included) stays; the single-`echo` write is submitted unless an `Exception` is thrown before it, which is only logged; on failure the fields stay and the error names the outcome |
| HideViewModel.ClearUnameField | app/src/main/java/me/yervant/yapatch/ui/viewmodel/HideViewModel.kt:258-288 | on success the coded field becomes "" and everything else in the state (the error included) stays; the file is rewritten every time unless an `Exception` is thrown before it, which is only logged; on failure the error names the outcome |
| HideViewModel.LoadConfig | app/src/main/java/me/yervant/yapatch/ui/viewmodel/HideViewModel.kt:55-99 | list and fields are replaced by the loaded data; the six values are pushed in field order until one throws, and that exception's message is reported; loading always ends |
| HideViewModel.ClearError | app/src/main/java/me/yervant/yapatch/ui/viewmodel/HideViewModel.kt:313-315 | the error is gone and nothing else changes |
| HideViewModel.TransitionsKeepListWellFormed | app/src/main/java/me/yervant/yapatch/ui/viewmodel/HideViewModel.kt:155-207 | every transition keeps the hide list made of non-blank trimmed paths |
| HideViewModel.LoadConfigIgnoresCodes | app/src/main/java/me/yervant/yapatch/ui/viewmodel/HideViewModel.kt:82-89 | the result codes of the six pushes do not affect the outcome |
| HideViewModel.AddedPathPersists | app/src/main/java/me/yervant/yapatch/ui/viewmodel/HideViewModel.kt:155-182 | after a successful add of a safe path (no quotes, backslashes or line terminators, not an `echo` option word), running the save job and reloading gives the list shown on screen |
| HideViewModel.SecondClearWritesAgain | app/src/main/java/me/yervant/yapatch/ui/viewmodel/HideViewModel.kt:262-273 | a second successful clear of the same field still submits a write |
| HideViewModel.SavedFieldPersists | app/src/main/java/me/yervant/yapatch/ui/viewmodel/HideViewModel.kt:226-256 | after a successful set of a safe value, running the write and reloading gives the screen's config |
| RootShell.Fallback | app/src/main/java/me/yervant/yapatch/util/YAPatchCli.kt:36-67 | candidates are tried in order and only after every earlier one failed; the result is the last one tried, and it spawns; nothing at all is built only when every candidate fails |
| RootShell.FallbackFirst | app/src/main/java/me/yervant/yapatch/util/YAPatchCli.kt:36-67 | the result is the candidate at the first index that spawns, after trying exactly the candidates up to it |
| RootShell.CreateRootShell | app/src/main/java/me/yervant/yapatch/util/YAPatchCli.kt:33-68 | the shell built carries the initializer and is the candidate at the first index that spawns, every earlier one having failed; the call fails exactly when all four tiers fail, and never when `sh` spawns |
| RootShell.FallbackBuildsFirst | app/src/main/java/me/yervant/yapatch/util/YAPatchCli.kt:36-67 | whatever the fallback builds sits at the first spawning index of the candidate list |
| RootShell.TryGetRootShell | app/src/main/java/me/yervant/yapatch/util/YAPatchCli.kt:99-124 | the same fallback without initializer: the first spawning candidate wins, and the call fails exactly when all four tiers fail |
| RootShell.MountFlags | app/src/main/java/me/yervant/yapatch/util/YAPatchCli.kt:37-61 | tier 1 is the same for both mounts; tier 2 gains `--mount-master` and tier 3 gains `-mm` exactly for the global mount |
| RootShell.TryMatchesCreate | app/src/main/java/me/yervant/yapatch/util/YAPatchCli.kt:99-124 | `tryGetRootShell` tries what `createRootShell(false)` tries and picks the same argv; it differs only in skipping the initializer |
| RootShell.SuperFirst | app/src/main/java/me/yervant/yapatch/util/YAPatchCli.kt:37-39 | when the su helper spawns it is used, whatever the mount flag |
| RootShell.ShLast | app/src/main/java/me/yervant/yapatch/util/YAPatchCli.kt:53-64 | once the three root tiers fail, every candidate has been tried, and the result is `sh` if it spawns and an escaping failure if not |
| RootShell.Init | app/src/main/java/me/yervant/yapatch/util/YAPatchCli.kt:70-72 | the object holds exactly `createRootShell(false)` as the default shell and `createRootShell(true)` as the global-mount shell, built in that order with distinct serials; it fails exactly when either build fails |
| RootShell.Refresh | app/src/main/java/me/yervant/yapatch/util/YAPatchCli.kt:73-77 | a new default shell is installed and only then the old one closed; the global-mount shell is untouched; a failed build changes and closes nothing |
| RootShell.GetRootShell | app/src/main/java/me/yervant/yapatch/util/YAPatchCli.kt:80-85 | `getRootShell(true)` is the global-mount shell and `getRootShell(false)` the default one; in a valid object they differ, so the global-mount shell is returned exactly when asked for |
| RootShell.RefreshKeepsValid | app/src/main/java/me/yervant/yapatch/util/YAPatchCli.kt:73-85 | a refresh keeps both shells distinct and accounted for, closes only the shell it replaced, and never the one now in use or the global one |
| RootShell.ExecApd | app/src/main/java/me/yervant/yapatch/util/YAPatchCli.kt:138-146 | the command is `APD_PATH`, one blank, then the arguments; it runs on a fresh shell exactly when asked to |
| RootShell.ListModulesJobs | app/src/main/java/me/yervant/yapatch/util/YAPatchCli.kt:148-155 | the listing `<APD_PATH> module list` runs on the default shell, and the `ori.img` move runs on a fresh shell |
| RootShell.ListModules | app/src/main/java/me/yervant/yapatch/util/YAPatchCli.kt:156 | the result is never blank: either `[]` or the lines joined by newlines |
| RootShell.JoinBlank | app/src/main/java/me/yervant/yapatch/util/YAPatchCli.kt:156 | the joined output is blank exactly when every line is |
| RootShell.ListModulesEmpty | app/src/main/java/me/yervant/yapatch/util/YAPatchCli.kt:156 | all-blank output gives `[]`; output with any non-blank line comes back joined |
| RootShell.ModuleArgsInjective | app/src/main/java/me/yervant/yapatch/util/YAPatchCli.kt:159-175 | enable, disable and uninstall arguments never coincide, and a toggle's arguments determine both the id and the direction |
| RootShell.ToggleWords | app/src/main/java/me/yervant/yapatch/util/YAPatchCli.kt:159-165 | for a plain id the shell sees exactly the words `<APD_PATH> module enable|disable <id>` |

## Left out

- Coroutines, dispatchers and the unsynchronised race between concurrent writes of a config file are not modelled. Each operation is one atomic step, and its shell job is handed back instead of being run.
- The JNI `Natives.*` calls are not modelled; their result code or exception is an input.
- Process spawning is not modelled: libsu's `Shell.Builder` and `Job` execution, `ShellUtils` and `SuFile` are replaced by an oracle over the argv, plus the small POSIX shell over a file map.
- The exit status of a shell job is an input, as the `JobResult` given to the loaders. The effect of `chown` and `chmod` on ownership and mode is not modelled; only their leaving the file contents alone is.
- The Compose screens, snackbars, string resources and logging are left out: they are UI and carry no logic.
- `installModule`, `runAPModuleAction`, `reboot`, the lite-mode, overlayfs and namespace toggles, and `getFileNameFromUri` are left out. They are I/O side effects outside this model.
- `RootShellInitializer`'s `PATH` export is modelled only as a flag on the shell.
- `UnameViewModel`'s own `init` (creating the files directory) is left out: it is I/O with no logic.
- `UnameViewModel.LoadConfig`: the `catch` in `loadConfig` is not modelled, because `loadUnameConfigData` already catches every exception itself, so that branch cannot be reached.
- `UnameViewModel.LoadUnameConfigData`: an `IOException` from `createNewFile` is folded into the same result, the all-empty config. Whether the empty file then exists is not tracked on that path.
- PosixShell.ExecEchoRedirect: `echo` of an operand that contains a backslash is left undefined (`None`). POSIX makes it implementation-defined, and Android's `mksh` interprets escapes. The other option words mksh's `echo` accepts (`-e`, `-E`, `-ne`, and a `-n` followed by one of them) are left undefined the same way, since mksh would print them as nothing or a blank line. So every round-trip property above requires values without backslashes that are not option words.
- PosixShell.Tokens: only blanks, single quotes, backslash and `>`/`>>` are interpreted. Any other unquoted shell special character makes the line unreadable (`None`), rather than expanded. A word of digits directly before `>` (`echo 2>f`) is read as a word and a stdout redirection, not as the IO_NUMBER of section 2.10.1 that redirects that descriptor; every modelled command puts a blank before its operator.
- HideViewModel.HideSaveThenLoad: stated only for paths without `'`, backslash or line terminators, and not an `echo` option word (`-n`, `-e`, `-ne`, ...). Other paths break the unescaped command; QuoteInPathBreaksSave exhibits the quote case.
- HideViewModel.AddedPathPersists: stated only for safe paths, as HideSaveThenLoad. Paths that are option words (`-e` writes a blank line, which the loader drops; `-ne` writes nothing) do not come back, and the model gives no result for them.
- RootShell.Init: the object's initialisers are modelled as running eagerly, in declaration order, with serials 0 and 1 telling the two shells apart. JVM class-initialisation errors are not modelled.
- HideViewModel.QuoteInPathBreaksSave: only the model's tokenizer is shown to reject the line. A real shell reading the job from its input keeps reading past an unclosed `'`, so the following `echo` lines become part of the quoted word; that behaviour is not modelled.
- A save's `fault` is an `Exception` thrown inside its `try` block before the job is submitted. An exception after part of a job has run is not modelled.
- Having no root shell at all is not a `fault`. `getRootShell` only reads the `YAPatchCli` object, whose initialiser then fails with a JVM `Error` (`ExceptionInInitializerError`, later `NoClassDefFoundError`). The saves' `catch (e: Exception)` does not catch an `Error`, so the coroutine dies with no message set. The model does not represent this; `RootShell.Init` returning `None` is the only trace of it.
- Module ids are pasted into `apd` command lines unquoted. Only plain ids are shown to tokenize as one word; ids with blanks or shell specials are not analysed.

=== FILE: bridge.dfy ===
/** The JNI bridge (`Natives.*`) as the view models see it: every call either
    returns an integer result code or throws. The code itself is an input of
    the model; only the way the view models react to it is modelled. */
module Bridge {
  import opened Decimal

  /** What one native call came back with. */
  datatype Outcome = Returned(code: int) | Raised(message: string)

  /** The native calls the two view models make, with their arguments. */
  datatype Call =
    | SpoofUnameSet(field: int, value: string)
    | SpoofUnameRemove(field: int)
    | HideFilesAdd(path: string)
    | HideFilesRemove(path: string)

  predicate Succeeded(o: Outcome) {
    o == Returned(0)
  }

  /** What follows "Failed to <action>" in the message. */
  function Detail(o: Outcome): string {
    match o
    case Returned(code) => " (error code: " + IntToString(code) + ")"
    case Raised(message) => ": " + message
  }

  /** The user-visible message for a failed call: "Failed to <action> (error
      code: <n>)" for a non-zero code, "Failed to <action>: <message>" for an
      exception. */
  function Failure(action: string, o: Outcome): (r: string)
    ensures |r| > |"Failed to " + action|
    ensures r[..|"Failed to " + action|] == "Failed to " + action
  {
    "Failed to " + action + Detail(o)
  }

  lemma CodeMessageShape(action: string, code: int)
    ensures Failure(action, Returned(code))
      == ("Failed to " + action + " (error code: ") + IntToString(code) + ")"
  {
  }

  /** The detail determines the outcome. */
  lemma DetailInjective(a: Outcome, b: Outcome)
    requires Detail(a) == Detail(b)
    ensures a == b
  {
    var d := Detail(a);
    assert d[0] == Detail(b)[0];
    if a.Returned? && b.Returned? {
      var q := " (error code: ";
      assert IntToString(a.code) == d[|q|..|d| - 1];
      assert IntToString(b.code) == d[|q|..|d| - 1];
      IntToStringInjective(a.code, b.code);
    } else if a.Raised? && b.Raised? {
      assert a.message == d[2..];
      assert b.message == d[2..];
    }
  }

  lemma PrefixCancel(p: string, x: string, y: string)
    requires p + x == p + y
    ensures x == y
  {
    assert x == (p + x)[|p|..];
    assert y == (p + y)[|p|..];
  }

  /** The message determines the outcome: distinct codes, distinct exception
      messages, and a code versus an exception never print the same. */
  lemma FailureInjective(action: string, a: Outcome, b: Outcome)
    requires Failure(action, a) == Failure(action, b)
    ensures a == b
  {
    PrefixCancel("Failed to " + action, Detail(a), Detail(b));
    DetailInjective(a, b);
  }
}

=== FILE: decimal.dfy ===
/** Kotlin's `Int.toString()` (decimal, a leading '-' for negatives), used for
    the result codes in error messages and for the application uid in `chown`. */
module Decimal {
  import opened Text

  predicate IsDigit(c: char) {
    '0' <= c <= '9'
  }

  predicate AllDigits(s: string) {
    forall i :: 0 <= i < |s| ==> IsDigit(s[i])
  }

  function DigitChar(d: nat): (c: char)
    requires d < 10
    ensures IsDigit(c) && (c as int) - ('0' as int) == d
  {
    ('0' as int + d) as char
  }

  /** Decimal digits of `n`, most significant first, no leading zero. */
  function NatToString(n: nat): (r: string)
    ensures |r| >= 1 && AllDigits(r)
    ensures r[0] == '0' ==> n == 0
    decreases n
  {
    if n < 10 then [DigitChar(n)] else NatToString(n / 10) + [DigitChar(n % 10)]
  }

  function IntToString(n: int): (r: string)
    ensures |r| >= 1
    ensures forall i :: 0 <= i < |r| ==> IsDigit(r[i]) || r[i] == '-'
  {
    if n < 0 then "-" + NatToString(-n) else NatToString(n)
  }

  /** The value of a string of decimal digits. */
  function DigitsValue(s: string): nat
    requires AllDigits(s)
    decreases |s|
  {
    if s == [] then 0
    else DigitsValue(s[..|s| - 1]) * 10 + ((s[|s| - 1] as int) - ('0' as int))
  }

  /** Reads back an optionally negative decimal number. */
  function ParseInt(s: string): Option<int> {
    if |s| >= 1 && AllDigits(s) then Some(DigitsValue(s) as int)
    else if |s| >= 2 && s[0] == '-' && AllDigits(s[1..]) then Some(-(DigitsValue(s[1..]) as int))
    else None
  }

  lemma {:induction false} DigitsValueOfNat(n: nat)
    ensures DigitsValue(NatToString(n)) == n
    decreases n
  {
    if n >= 10 {
      var s := NatToString(n);
      assert s[..|s| - 1] == NatToString(n / 10);
      DigitsValueOfNat(n / 10);
    }
  }

  /** Decimal printing loses nothing: the number can be read back. */
  lemma IntToStringRoundTrip(n: int)
    ensures ParseInt(IntToString(n)) == Some(n)
  {
    if n < 0 {
      var s := IntToString(n);
      assert s[1..] == NatToString(-n);
      DigitsValueOfNat(-n);
      assert !IsDigit(s[0]);
    } else {
      DigitsValueOfNat(n);
    }
  }

  /** Distinct numbers print differently. */
  lemma IntToStringInjective(a: int, b: int)
    requires IntToString(a) == IntToString(b)
    ensures a == b
  {
    IntToStringRoundTrip(a);
    IntToStringRoundTrip(b);
  }
}

=== FILE: hide_view_model.dfy ===
/** `HideViewModel`: the list of paths hidden by the kernel patch, the text
    field for a new path, and a second copy of the uname fields. Both lists
    are persisted through root shell jobs into `<YAPatch folder>hide_files`
    and `<YAPatch folder>uname_config`, and read back with `cat`. Unlike
    `UnameViewModel`, nothing here is shell-escaped. */
module HideViewModel {
  import opened Text
  import opened Lines
  import opened Indent
  import opened PosixShell
  import opened Uname
  import opened Bridge

  /** `APApplication.YAPatch_FOLDER`, the prefix of both config paths. */
  datatype Env = Env(folder: string)

  function HideFilesPath(env: Env): string {
    env.folder + "hide_files"
  }

  function UnamePath(env: Env): string {
    env.folder + "uname_config"
  }

  /** Both paths are used unquoted; the proofs need them to be single plain
      shell words. */
  predicate PlainPaths(env: Env) {
    PlainWord(HideFilesPath(env)) && PlainWord(UnamePath(env))
  }

  datatype State = State(
    hideFiles: seq<string>,
    newHideFile: string,
    config: UnameConfig,
    isLoading: bool,
    errorMessage: Option<string>)

  /** The effect of one transition: new state, native calls, shell job. */
  datatype Step = Step(state: State, calls: seq<Call>, job: Option<seq<string>>)

  // ---------------------------------------------------------------------
  // loadHideFilesConfigData
  // ---------------------------------------------------------------------

  /** An entry of the hide list as the loader and `addHideFile` produce it. */
  predicate HidePath(p: string) {
    !IsBlank(p) && Trimmed(p)
  }

  predicate WellFormedList(list: seq<string>) {
    forall i :: 0 <= i < |list| ==> HidePath(list[i])
  }

  lemma TrimNotBlank(s: string)
    requires !IsBlank(s)
    ensures HidePath(Trim(s))
  {
    var t := Trim(s);
    assert t != [];
    assert !IsWhitespace(t[0]);
  }

  /** `filter { it.isNotBlank() }.map { it.trim() }`. */
  function KeepPaths(out: seq<string>): (r: seq<string>)
    ensures |r| <= |out|
    ensures WellFormedList(r)
    decreases |out|
  {
    if out == [] then []
    else if IsBlank(out[0]) then KeepPaths(out[1..])
    else
      TrimNotBlank(out[0]);
      [Trim(out[0])] + KeepPaths(out[1..])
  }

  /** Every non-blank line of the output shows up, trimmed. */
  lemma {:induction false} KeepPathsKeepsNonBlank(out: seq<string>, i: nat)
    requires i < |out| && !IsBlank(out[i])
    ensures Trim(out[i]) in KeepPaths(out)
    decreases i
  {
    var rest := KeepPaths(out[1..]);
    if i == 0 {
      assert KeepPaths(out) == [Trim(out[0])] + rest;
    } else {
      assert out[1..][i - 1] == out[i];
      KeepPathsKeepsNonBlank(out[1..], i - 1);
      assert KeepPaths(out) == rest || KeepPaths(out) == [Trim(out[0])] + rest;
    }
  }

  /** The filter works line by line, keeping order. */
  lemma {:induction false} KeepPathsAppend(a: seq<string>, b: seq<string>)
    ensures KeepPaths(a + b) == KeepPaths(a) + KeepPaths(b)
    decreases |a|
  {
    if a == [] {
      assert a + b == b;
    } else {
      assert (a + b)[0] == a[0];
      assert (a + b)[1..] == a[1..] + b;
      KeepPathsAppend(a[1..], b);
    }
  }

  /** On one line the filter drops a blank line and trims any other; with
      `KeepPathsAppend` this fixes the filter on every output. */
  lemma KeepPathsOne(l: string)
    ensures IsBlank(l) ==> KeepPaths([l]) == []
    ensures !IsBlank(l) ==> KeepPaths([l]) == [Trim(l)]
  {
    assert [l][1..] == [];
  }

  /** Nothing else gets in: each entry is a non-blank output line, trimmed. */
  lemma {:induction false} KeepPathsOnlyNonBlank(out: seq<string>, p: string)
    requires p in KeepPaths(out)
    ensures exists i :: 0 <= i < |out| && !IsBlank(out[i]) && p == Trim(out[i])
    decreases |out|
  {
    var rest := out[1..];
    if !IsBlank(out[0]) && p == Trim(out[0]) {
      assert 0 < |out| && !IsBlank(out[0]);
    } else {
      assert KeepPaths(out) == KeepPaths(rest) || KeepPaths(out) == [Trim(out[0])] + KeepPaths(rest);
      assert p in KeepPaths(rest);
      KeepPathsOnlyNonBlank(rest, p);
      var i :| 0 <= i < |rest| && !IsBlank(rest[i]) && p == Trim(rest[i]);
      assert out[i + 1] == rest[i];
    }
  }

  /** A well-formed list passes through the filter unchanged. */
  lemma {:induction false} KeepPathsKeeps(list: seq<string>)
    requires WellFormedList(list)
    ensures KeepPaths(list) == list
    decreases |list|
  {
    if list != [] {
      assert HidePath(list[0]);
      KeepPathsKeeps(list[1..]);
      assert list == [list[0]] + list[1..];
    }
  }

  /** `cat` the list file: the kept lines on success, nothing on failure or
      exception. */
  function LoadHideFilesConfigData(job: JobResult): (r: seq<string>)
    ensures WellFormedList(r)
    ensures job.Done? && job.success ==> r == KeepPaths(job.out)
    ensures !(job.Done? && job.success) ==> r == []
  {
    match job
    case Done(success, out) => if success then KeepPaths(out) else []
    case Threw(_) => []
  }

  // ---------------------------------------------------------------------
  // loadUnameConfigData (the `cat` variant)
  // ---------------------------------------------------------------------

  predicate IsEntryCandidate(line: string) {
    !IsBlank(line) && '=' in line
  }

  /** `filter { it.isNotBlank() && it.contains("=") }`. */
  function EntryCandidates(ls: seq<string>): (r: seq<string>)
    ensures |r| <= |ls|
    ensures forall i :: 0 <= i < |r| ==> IsEntryCandidate(r[i])
    decreases |ls|
  {
    if ls == [] then []
    else
      var prefix := EntryCandidates(ls[..|ls| - 1]);
      var last := ls[|ls| - 1];
      if IsEntryCandidate(last) then prefix + [last] else prefix
  }

  /** Filtering first changes nothing: the fold skips those lines anyway. */
  lemma {:induction false} FilterThenParse(ls: seq<string>)
    ensures Parse(EntryCandidates(ls)) == Parse(ls)
    decreases |ls|
  {
    if ls != [] {
      var prefix := ls[..|ls| - 1];
      var last := ls[|ls| - 1];
      FilterThenParse(prefix);
      if IsEntryCandidate(last) {
        ParseSnoc(EntryCandidates(prefix), last);
      } else {
        assert ParseLine(last).None?;
      }
    }
  }

  /** `cat` the uname file and fold the candidate lines; any failure yields
      the all-empty config. */
  function LoadUnameConfigData(job: JobResult): (r: UnameConfig)
    ensures !(job.Done? && job.success) ==> r == Empty
    ensures job.Done? && job.success ==> r == Parse(job.out)
  {
    match job
    case Done(success, out) =>
      if success then
        FilterThenParse(out);
        Parse(EntryCandidates(out))
      else Empty
    case Threw(_) => Empty
  }

  // ---------------------------------------------------------------------
  // saveHideFilesConfig
  // ---------------------------------------------------------------------

  /** `echo '<path>' >> <list file>`, the path pasted in unescaped. */
  function EchoPath(p: string, env: Env): string {
    EchoTo("'" + p + "'", true, HideFilesPath(env))
  }

  /** `echo -n > <list file>` and then one append per entry, in list order. */
  function HideSaveCommands(list: seq<string>, env: Env): (r: seq<string>)
    ensures |r| == 1 + |list|
    ensures r[0] == EchoTo("-n", false, HideFilesPath(env))
    ensures forall i :: 0 <= i < |list| ==> r[i + 1] == EchoPath(list[i], env)
  {
    [EchoTo("-n", false, HideFilesPath(env))] + seq(|list|, i requires 0 <= i < |list| => EchoPath(list[i], env))
  }

  /** An entry the unescaped writer stores faithfully. */
  predicate SafePath(p: string) {
    HidePath(p) && IsLine(p) && '\'' !in p && NoBackslash(p) && !EchoOptions(p)
  }

  lemma ExecEchoPath(fs: Files, p: string, env: Env)
    requires SafePath(p) && PlainPaths(env)
    ensures Exec(fs, EchoPath(p, env)) == Some(WriteTo(fs, Target(HideFilesPath(env), true), p + "\n"))
  {
    var cfg := HideFilesPath(env);
    CountAbsent(p, '\'');
    assert "'" + p + "'" == QuoteWord(p);
    QuotedScansAs(p);
    PlainScansAs(cfg);
    ExecEchoRedirect(fs, QuoteWord(p), p, cfg, cfg, true);
  }

  lemma AppendOnePath(fs: Files, before: string, p: string, env: Env, cmd: string)
    requires SafePath(p) && PlainPaths(env) && cmd == EchoPath(p, env)
    ensures ExecBatch(fs[HideFilesPath(env) := before], [cmd]) == Some(fs[HideFilesPath(env) := before + (p + "\n")])
  {
    var cfg := HideFilesPath(env);
    ExecEchoPath(fs[cfg := before], p, env);
    WriteAppended(fs, cfg, before, p + "\n");
    ExecSingle(fs[cfg := before], cmd, fs[cfg := before + (p + "\n")]);
  }

  lemma TruncateList(fs: Files, list: seq<string>, env: Env)
    requires PlainPaths(env)
    ensures ExecBatch(fs, HideSaveCommands(list, env)[..1]) == Some(fs[HideFilesPath(env) := Terminated(list[..0])])
  {
    var r := HideSaveCommands(list, env);
    var cfg := HideFilesPath(env);
    PlainScansAs(cfg);
    ExecEchoEmpty(fs, cfg, cfg);
    assert r[..1] == [r[0]];
    ExecBatchCons(fs, r[..1], fs[cfg := ""]);
    assert r[..1][1..] == [];
    assert list[..0] == [];
  }

  lemma PathsNext(fs: Files, list: seq<string>, env: Env, k: nat)
    requires PlainPaths(env) && 1 <= k <= |list| && SafePath(list[k - 1])
    requires ExecBatch(fs, HideSaveCommands(list, env)[..k]) == Some(fs[HideFilesPath(env) := Terminated(list[..k - 1])])
    ensures ExecBatch(fs, HideSaveCommands(list, env)[..k + 1]) == Some(fs[HideFilesPath(env) := Terminated(list[..k])])
  {
    var r := HideSaveCommands(list, env);
    var before := Terminated(list[..k - 1]);
    AppendOnePath(fs, before, list[k - 1], env, r[k]);
    assert r[..k + 1] == r[..k] + [r[k]];
    ExecBatchAppend(fs, r[..k], [r[k]]);
    SnocPrefix(list, k);
  }

  lemma {:induction false} PathsWrite(fs: Files, list: seq<string>, env: Env, k: nat)
    requires PlainPaths(env) && k <= |list|
    requires forall i :: 0 <= i < |list| ==> SafePath(list[i])
    ensures ExecBatch(fs, HideSaveCommands(list, env)[..k + 1]) == Some(fs[HideFilesPath(env) := Terminated(list[..k])])
    decreases k
  {
    if k == 0 {
      TruncateList(fs, list, env);
    } else {
      PathsWrite(fs, list, env, k - 1);
      assert SafePath(list[k - 1]);
      PathsNext(fs, list, env, k);
    }
  }

  lemma HideSaveWrites(fs: Files, list: seq<string>, env: Env)
    requires PlainPaths(env)
    requires forall i :: 0 <= i < |list| ==> SafePath(list[i])
    ensures ExecBatch(fs, HideSaveCommands(list, env)) == Some(fs[HideFilesPath(env) := Terminated(list)])
  {
    var r := HideSaveCommands(list, env);
    PathsWrite(fs, list, env, |list|);
    assert r[..|list| + 1] == r;
    assert list[..|list|] == list;
  }

  lemma HideReadBack(fs: Files, list: seq<string>, path: string)
    requires forall i :: 0 <= i < |list| ==> SafePath(list[i])
    ensures LoadHideFilesConfigData(Cat(fs[path := Terminated(list)], path)) == list
  {
    assert AllLines(list);
    ReadLinesTerminated(list);
    assert WellFormedList(list);
    KeepPathsKeeps(list);
  }

  /** Saving a list of safe paths leaves exactly those lines in the list
      file, and reading it back gives the same list. */
  lemma HideSaveThenLoad(fs: Files, list: seq<string>, env: Env)
    requires PlainPaths(env)
    requires forall i :: 0 <= i < |list| ==> SafePath(list[i])
    ensures ExecBatch(fs, HideSaveCommands(list, env)) == Some(fs[HideFilesPath(env) := Terminated(list)])
    ensures LoadHideFilesConfigData(Cat(fs[HideFilesPath(env) := Terminated(list)], HideFilesPath(env))) == list
  {
    HideSaveWrites(fs, list, env);
    HideReadBack(fs, list, HideFilesPath(env));
  }

  /** A quoted run, a plain run, then a quote that never closes. */
  lemma UnbalancedScan(a: string, b: string, tail: string)
    requires '\'' !in a && PlainWord(b) && '\'' !in tail
    ensures ScanWord("'" + (a + ("'" + (b + ("'" + tail)))), []) == None
  {
    StepOpenQuote(a + ("'" + (b + ("'" + tail))), []);
    ScanQuotedRun(a, "'" + (b + ("'" + tail)), []);
    StepCloseQuote(b + ("'" + tail), [] + a);
    ScanPlain(b, "'" + tail, [] + a);
    StepOpenQuote(tail, [] + a + b);
    UnclosedQuote(tail, [] + a + b);
  }

  lemma UnbalancedTokens(a: string, b: string, tail: string)
    requires '\'' !in a && PlainWord(b) && '\'' !in tail
    ensures Tokens("'" + (a + ("'" + (b + ("'" + tail))))) == None
  {
    UnbalancedScan(a, b, tail);
  }

  lemma EchoPathShape(a: string, b: string, env: Env)
    ensures EchoPath(a + "'" + b, env) ==
      "echo" + " " + ("'" + (a + ("'" + (b + ("'" + (" " + RedirectOp(true) + " " + HideFilesPath(env)))))))
  {
    var arg := "'" + (a + "'" + b) + "'";
    EchoToShape(arg, true, HideFilesPath(env));
  }

  /** The writer does not escape: an entry with a single quote in it (say
      `/data/local/tmp/it's`) closes the quoted word early and leaves a
      quote unbalanced, so the tokenizer gives its `echo` line no reading. */
  lemma QuoteInPathBreaksSave(a: string, b: string, env: Env)
    requires '\'' !in a && PlainWord(b) && PlainPaths(env)
    ensures Tokens(EchoPath(a + "'" + b, env)) == None
  {
    var tail := " " + RedirectOp(true) + " " + HideFilesPath(env);
    assert '\'' !in tail;
    var line := "'" + (a + ("'" + (b + ("'" + tail))));
    EchoPathShape(a, b, env);
    PlainScansAs("echo");
    TokensWordThen("echo", "echo", line);
    UnbalancedTokens(a, b, tail);
  }

  // ---------------------------------------------------------------------
  // saveUnameConfigToFile (the single `echo`)
  // ---------------------------------------------------------------------

  /** The raw string literal before `trimIndent`: an empty first line, the
      six `key=value` lines indented by 16 spaces, a last line of 12 spaces. */
  function UnameTemplate(c: UnameConfig): string {
    JoinSep(Block("", ConfigLines(c), Spaces(12), 16), "\n")
  }

  /** `configContent`. */
  function ConfigContent(c: UnameConfig): string {
    TrimIndent(UnameTemplate(c))
  }

  /** `echo '<configContent>' > <uname file>`, unescaped. */
  function UnameWriteCommand(c: UnameConfig, env: Env): string {
    EchoTo("'" + ConfigContent(c) + "'", false, UnamePath(env))
  }

  /** A config the unescaped single-`echo` writer stores faithfully. */
  predicate SafeConfig(c: UnameConfig) {
    forall f :: Storable(c.Get(f)) && '\'' !in c.Get(f) && NoBackslash(c.Get(f))
  }

  lemma EntryLineAvoids(f: Field, v: string, ch: char)
    requires ch !in v && ch !in Key(f) && ch != '='
    ensures ch !in EntryLine(f, v)
  {
  }

  lemma EntryBodyLine(f: Field, v: string)
    requires IsLine(v)
    ensures BodyLine(EntryLine(f, v))
  {
    var l := EntryLine(f, v);
    assert l[0] == Key(f)[0];
    forall j | 0 <= j < |l| ensures !IsTerminator(l[j]) {
      if j > |Key(f)| {
        assert l[j] == v[j - |Key(f)| - 1];
      }
    }
  }

  /** `trimIndent` strips the template down to the six lines joined by "\n". */
  lemma ContentIsLines(c: UnameConfig)
    requires forall f :: IsLine(c.Get(f))
    ensures ConfigContent(c) == JoinSep(ConfigLines(c), "\n")
  {
    var ls := ConfigLines(c);
    forall i | 0 <= i < |ls| ensures BodyLine(ls[i]) {
      ConfigLinesIndex(c, i);
      EntryBodyLine(AllFields[i], c.Get(AllFields[i]));
    }
    assert IsBlank(Spaces(12));
    TrimIndentBlock("", ls, Spaces(12), 16);
  }

  lemma ContentAvoids(c: UnameConfig, ch: char)
    requires forall f :: ch !in c.Get(f)
    requires ch != '\n' && ch != '=' && forall f :: ch !in Key(f)
    ensures ch !in JoinSep(ConfigLines(c), "\n")
  {
    var ls := ConfigLines(c);
    forall i | 0 <= i < |ls| ensures ch !in ls[i] {
      ConfigLinesIndex(c, i);
      EntryLineAvoids(AllFields[i], c.Get(AllFields[i]), ch);
    }
    JoinSepAvoids(ls, "\n", ch);
  }

  lemma ContentAvoidsQuote(c: UnameConfig)
    requires SafeConfig(c)
    ensures '\'' !in JoinSep(ConfigLines(c), "\n")
  {
    KeysAvoid('\'');
    ContentAvoids(c, '\'');
  }

  lemma ContentAvoidsBackslash(c: UnameConfig)
    requires SafeConfig(c)
    ensures NoBackslash(JoinSep(ConfigLines(c), "\n"))
  {
    KeysAvoid('\\');
    ContentAvoids(c, '\\');
  }

  lemma QuotedContent(c: UnameConfig)
    requires SafeConfig(c)
    ensures "'" + ConfigContent(c) + "'" == QuoteWord(JoinSep(ConfigLines(c), "\n"))
    ensures NoBackslash(JoinSep(ConfigLines(c), "\n"))
  {
    var text := JoinSep(ConfigLines(c), "\n");
    assert forall f :: IsLine(c.Get(f));
    ContentIsLines(c);
    ContentAvoidsQuote(c);
    ContentAvoidsBackslash(c);
    CountAbsent(text, '\'');
  }

  lemma ContentNotOptions(c: UnameConfig)
    ensures !EchoOptions(JoinSep(ConfigLines(c), "\n"))
  {
    var ls := ConfigLines(c);
    ConfigLinesIndex(c, 0);
    assert ls[0][0] == 's';
    assert JoinSep(ls, "\n")[0] == 's';
  }

  /** The single `echo` truncates the file to the six lines. */
  lemma UnameWrite(fs: Files, c: UnameConfig, env: Env)
    requires PlainPaths(env) && SafeConfig(c)
    ensures Exec(fs, UnameWriteCommand(c, env)) == Some(fs[UnamePath(env) := Terminated(ConfigLines(c))])
  {
    var ls := ConfigLines(c);
    var text := JoinSep(ls, "\n");
    var up := UnamePath(env);
    QuotedContent(c);
    QuotedScansAs(text);
    PlainScansAs(up);
    ContentNotOptions(c);
    ExecEchoRedirect(fs, QuoteWord(text), text, up, up, false);
    WriteTruncates(fs, up, text + "\n");
    JoinThenNewline(ls);
  }

  /** The single `echo` writes the six lines, and `cat` plus the fold reads
      back the config: for values with no quote, no backslash, no line
      terminator and no surrounding whitespace. */
  lemma UnameSaveThenLoad(fs: Files, c: UnameConfig, env: Env)
    requires PlainPaths(env) && SafeConfig(c)
    ensures Exec(fs, UnameWriteCommand(c, env)) == Some(fs[UnamePath(env) := Terminated(ConfigLines(c))])
    ensures LoadUnameConfigData(Cat(fs[UnamePath(env) := Terminated(ConfigLines(c))], UnamePath(env))) == c
  {
    UnameWrite(fs, c, env);
    assert StorableConfig(c);
    ReadBackConfig(c);
  }

  // ---------------------------------------------------------------------
  // Transitions
  // ---------------------------------------------------------------------

  /** `saveHideFilesConfig` from state `st`. `fault` is the message of an
      `Exception` thrown inside the save's `try` block before the job is
      submitted; then no job runs and the error reports the exception. */
  function SaveHideFiles(st: State, env: Env, fault: Option<string>): (r: Step)
    ensures r.calls == [] && r.state == st.(errorMessage := r.state.errorMessage)
    ensures fault.None? ==> r.job == Some(HideSaveCommands(st.hideFiles, env)) && r.state == st
    ensures fault.Some? ==>
      r.job.None? && r.state.errorMessage == Some(Failure("save hide files config", Raised(fault.value)))
  {
    match fault
    case None => Step(st, [], Some(HideSaveCommands(st.hideFiles, env)))
    case Some(m) => Step(st.(errorMessage := Some(Failure("save hide files config", Raised(m)))), [], None)
  }

  /** `addHideFile()`: the trimmed text field is appended (duplicates
      included) once the bridge accepts it; blank input does nothing. */
  function AddHideFile(st: State, o: Outcome, env: Env, fault: Option<string>): (r: Step)
    ensures IsBlank(st.newHideFile) ==> r == Step(st, [], None)
    ensures !IsBlank(st.newHideFile) ==> r.calls == [HideFilesAdd(Trim(st.newHideFile))]
    ensures !IsBlank(st.newHideFile) && Succeeded(o) ==>
      && r.state.hideFiles == st.hideFiles + [Trim(st.newHideFile)]
      && r.state.newHideFile == ""
      && r.state.isLoading == st.isLoading
    ensures !IsBlank(st.newHideFile) && Succeeded(o) && fault.None? ==>
      r.job == Some(HideSaveCommands(r.state.hideFiles, env)) && r.state.errorMessage == st.errorMessage
    ensures !IsBlank(st.newHideFile) && Succeeded(o) && fault.Some? ==>
      r.job.None? && r.state.errorMessage == Some(Failure("save hide files config", Raised(fault.value)))
    ensures !IsBlank(st.newHideFile) && !Succeeded(o) ==>
      && r.state == st.(errorMessage := Some(Failure("add hide file", o)))
      && r.job.None?
    ensures r.state.config == st.config
  {
    var p := Trim(st.newHideFile);
    if IsBlank(p) then
      Step(st, [], None)
    else if Succeeded(o) then
      var s := SaveHideFiles(st.(hideFiles := st.hideFiles + [p], newHideFile := ""), env, fault);
      s.(calls := [HideFilesAdd(p)])
    else
      Step(st.(errorMessage := Some(Failure("add hide file", o))), [HideFilesAdd(p)], None)
  }

  /** `MutableList.remove`: drops the first occurrence only. */
  function RemoveFirst(list: seq<string>, x: string): (r: seq<string>)
    ensures x !in list ==> r == list
    ensures x in list ==> |r| == |list| - 1
    decreases |list|
  {
    if list == [] then []
    else if list[0] == x then list[1..]
    else [list[0]] + RemoveFirst(list[1..], x)
  }

  /** The independent description: cut out position `i`, where `i` is the
      first position holding `x`. */
  lemma {:induction false} RemoveFirstAt(list: seq<string>, x: string, i: nat)
    requires i < |list| && list[i] == x && x !in list[..i]
    ensures RemoveFirst(list, x) == list[..i] + list[i + 1..]
    decreases i
  {
    if i > 0 {
      assert list[0] in list[..i];
      assert list[1..][..i - 1] == list[1..i];
      RemoveFirstAt(list[1..], x, i - 1);
      assert list[1..][i..] == list[i + 1..];
      assert list[..i] == [list[0]] + list[1..i];
    }
  }

  /** Exactly one copy of `x` goes; the other entries stay. */
  lemma {:induction false} RemoveFirstMultiset(list: seq<string>, x: string)
    requires x in list
    ensures multiset(RemoveFirst(list, x)) + multiset{x} == multiset(list)
    decreases |list|
  {
    if list[0] == x {
      assert list == [list[0]] + list[1..];
    } else {
      RemoveFirstMultiset(list[1..], x);
      assert list == [list[0]] + list[1..];
    }
  }

  /** Removing undoes an add of a path that was not listed before. */
  lemma RemoveUndoesFreshAdd(list: seq<string>, p: string)
    requires p !in list
    ensures RemoveFirst(list + [p], p) == list
  {
    assert (list + [p])[..|list|] == list;
    RemoveFirstAt(list + [p], p, |list|);
    assert (list + [p])[|list| + 1..] == [];
  }

  /** `removeHideFile(file)`. */
  function RemoveHideFile(st: State, file: string, o: Outcome, env: Env, fault: Option<string>): (r: Step)
    ensures r.calls == [HideFilesRemove(file)]
    ensures Succeeded(o) ==>
      r.state.hideFiles == RemoveFirst(st.hideFiles, file) && r.state.isLoading == st.isLoading
    ensures Succeeded(o) && fault.None? ==>
      r.job == Some(HideSaveCommands(r.state.hideFiles, env)) && r.state.errorMessage == st.errorMessage
    ensures Succeeded(o) && fault.Some? ==>
      r.job.None? && r.state.errorMessage == Some(Failure("save hide files config", Raised(fault.value)))
    ensures !Succeeded(o) ==>
      r.state == st.(errorMessage := Some(Failure("remove hide file", o))) && r.job.None?
    ensures r.state.config == st.config && r.state.newHideFile == st.newHideFile
  {
    if Succeeded(o) then
      var s := SaveHideFiles(st.(hideFiles := RemoveFirst(st.hideFiles, file)), env, fault);
      s.(calls := [HideFilesRemove(file)])
    else
      Step(st.(errorMessage := Some(Failure("remove hide file", o))), [HideFilesRemove(file)], None)
  }

  /** `saveUnameField(field, value)`. A failing write is only logged: when an
      `Exception` is thrown inside the write's `try` block before the job is
      submitted (`fault`), nothing is written and the state is as on
      success. */
  function SaveUnameField(st: State, code: int, value: string, o: Outcome, env: Env, fault: Option<string>): (r: Step)
    ensures r.calls == [SpoofUnameSet(code, value)]
    ensures Succeeded(o) ==>
      && (forall f :: r.state.config.Get(f) == if FieldOf(code) == Some(f) then value else st.config.Get(f))
      && r.state == st.(config := r.state.config)
    ensures Succeeded(o) && fault.None? ==> r.job == Some([UnameWriteCommand(r.state.config, env)])
    ensures Succeeded(o) && fault.Some? ==> r.job.None?
    ensures !Succeeded(o) ==>
      r.state == st.(errorMessage := Some(Failure("save uname field", o))) && r.job.None?
  {
    var call := [SpoofUnameSet(code, value)];
    if Succeeded(o) then
      var c := SetByCode(st.config, code, value);
      Step(st.(config := c), call, if fault.None? then Some([UnameWriteCommand(c, env)]) else None)
    else
      Step(st.(errorMessage := Some(Failure("save uname field", o))), call, None)
  }

  /** `clearUnameField(field)`: here the file is rewritten on every
      successful clear, even when the field was already empty. A failing
      write is only logged, as for `SaveUnameField`. */
  function ClearUnameField(st: State, code: int, o: Outcome, env: Env, fault: Option<string>): (r: Step)
    ensures r.calls == [SpoofUnameRemove(code)]
    ensures Succeeded(o) ==>
      && (forall f :: r.state.config.Get(f) == if FieldOf(code) == Some(f) then "" else st.config.Get(f))
      && r.state == st.(config := r.state.config)
    ensures Succeeded(o) && fault.None? ==> r.job == Some([UnameWriteCommand(r.state.config, env)])
    ensures Succeeded(o) && fault.Some? ==> r.job.None?
    ensures !Succeeded(o) ==>
      r.state == st.(errorMessage := Some(Failure("clear uname field", o))) && r.job.None?
  {
    var call := [SpoofUnameRemove(code)];
    if Succeeded(o) then
      var c := SetByCode(st.config, code, "");
      Step(st.(config := c), call, if fault.None? then Some([UnameWriteCommand(c, env)]) else None)
    else
      Step(st.(errorMessage := Some(Failure("clear uname field", o))), call, None)
  }

  /** The six native pushes of `loadConfig`, in field order. */
  function PushCalls(c: UnameConfig): (r: seq<Call>)
    ensures |r| == 6
    ensures forall i :: 0 <= i < 6 ==> r[i] == SpoofUnameSet(Code(AllFields[i]), c.Get(AllFields[i]))
  {
    seq(6, i requires 0 <= i < 6 => SpoofUnameSet(Code(AllFields[i]), c.Get(AllFields[i])))
  }

  /** Position of the first push that throws, or the number of pushes. */
  function FirstRaised(pushes: seq<Outcome>): (n: nat)
    ensures n <= |pushes|
    ensures forall i :: 0 <= i < n ==> pushes[i].Returned?
    ensures n < |pushes| ==> pushes[n].Raised?
    decreases |pushes|
  {
    if pushes == [] || pushes[0].Raised? then 0
    else 1 + FirstRaised(pushes[1..])
  }

  /** `loadConfig`: the list and the six fields are replaced by what was
      loaded, the six values are pushed to the bridge whatever codes come
      back (a push that throws stops the rest and is reported), and loading
      always ends. `pushes` are the bridge's answers to the six pushes. */
  function LoadConfig(st: State, hideJob: JobResult, unameJob: JobResult, pushes: seq<Outcome>): (r: Step)
    requires |pushes| == 6
    ensures r.state.hideFiles == LoadHideFilesConfigData(hideJob)
    ensures r.state.config == LoadUnameConfigData(unameJob)
    ensures !r.state.isLoading && r.state.newHideFile == st.newHideFile && r.job.None?
    ensures (forall i :: 0 <= i < 6 ==> pushes[i].Returned?) ==>
      r.calls == PushCalls(r.state.config) && r.state.errorMessage.None?
    ensures 1 <= |r.calls| <= 6 && r.calls == PushCalls(r.state.config)[..|r.calls|]
    ensures forall i :: 0 <= i < |r.calls| - 1 ==> pushes[i].Returned?
    ensures r.state.errorMessage.Some? ==>
      var k := |r.calls| - 1;
      pushes[k].Raised? && r.state.errorMessage.value == "Failed to load configuration: " + pushes[k].message
    ensures r.state.errorMessage.None? ==> |r.calls| == 6 && pushes[5].Returned?
  {
    var list := LoadHideFilesConfigData(hideJob);
    var c := LoadUnameConfigData(unameJob);
    var n := FirstRaised(pushes);
    var calls := PushCalls(c)[..if n < 6 then n + 1 else 6];
    var err := if n < 6 then Some("Failed to load configuration: " + pushes[n].message) else None;
    Step(State(list, st.newHideFile, c, false, err), calls, None)
  }

  /** `clearError`. */
  function ClearError(st: State): (r: State)
    ensures r.errorMessage.None?
    ensures r == st.(errorMessage := None)
  {
    st.(errorMessage := None)
  }

  // ---------------------------------------------------------------------
  // Properties across transitions
  // ---------------------------------------------------------------------

  /** Every transition keeps the hide list well formed. */
  lemma TransitionsKeepListWellFormed(st: State, o: Outcome, file: string, code: int, value: string,
                                      env: Env, fault: Option<string>)
    requires WellFormedList(st.hideFiles)
    ensures WellFormedList(AddHideFile(st, o, env, fault).state.hideFiles)
    ensures WellFormedList(RemoveHideFile(st, file, o, env, fault).state.hideFiles)
    ensures WellFormedList(SaveUnameField(st, code, value, o, env, fault).state.hideFiles)
    ensures WellFormedList(ClearUnameField(st, code, o, env, fault).state.hideFiles)
    ensures WellFormedList(ClearError(st).hideFiles)
  {
    AddKeepsWellFormed(st, o, env, fault);
    RemoveFirstKeepsWellFormed(st.hideFiles, file);
  }

  lemma AddKeepsWellFormed(st: State, o: Outcome, env: Env, fault: Option<string>)
    requires WellFormedList(st.hideFiles)
    ensures WellFormedList(AddHideFile(st, o, env, fault).state.hideFiles)
  {
    if !IsBlank(st.newHideFile) {
      TrimNotBlank(st.newHideFile);
    }
  }

  lemma {:induction false} RemoveFirstKeepsWellFormed(list: seq<string>, x: string)
    requires WellFormedList(list)
    ensures WellFormedList(RemoveFirst(list, x))
    decreases |list|
  {
    if list != [] && list[0] != x {
      RemoveFirstKeepsWellFormed(list[1..], x);
    }
  }

  /** The codes the pushes return do not matter, as long as none throws. */
  lemma LoadConfigIgnoresCodes(st: State, hideJob: JobResult, unameJob: JobResult, p1: seq<Outcome>, p2: seq<Outcome>)
    requires |p1| == 6 && |p2| == 6
    requires forall i :: 0 <= i < 6 ==> p1[i].Returned? && p2[i].Returned?
    ensures LoadConfig(st, hideJob, unameJob, p1) == LoadConfig(st, hideJob, unameJob, p2)
  {
  }

  /** After a successful add, running the save job and loading again gives
      the list as the screen shows it. */
  lemma AddedPathPersists(st: State, fs: Files, env: Env)
    requires PlainPaths(env) && !IsBlank(st.newHideFile)
    requires SafePath(Trim(st.newHideFile))
    requires forall i :: 0 <= i < |st.hideFiles| ==> SafePath(st.hideFiles[i])
    ensures var r := AddHideFile(st, Returned(0), env, None);
      && r.job.Some?
      && ExecBatch(fs, r.job.value).Some?
      && LoadHideFilesConfigData(Cat(ExecBatch(fs, r.job.value).value, HideFilesPath(env))) == r.state.hideFiles
  {
    var list := st.hideFiles + [Trim(st.newHideFile)];
    assert forall i :: 0 <= i < |list| ==> SafePath(list[i]);
    HideSaveThenLoad(fs, list, env);
  }

  /** Unlike `UnameViewModel`, a second clear of the same field writes the
      file again. */
  lemma SecondClearWritesAgain(st: State, code: int, env: Env)
    ensures var r1 := ClearUnameField(st, code, Returned(0), env, None);
      ClearUnameField(r1.state, code, Returned(0), env, None).job.Some?
  {
  }

  /** After a successful set, the write and a fresh load give back the
      screen's config. */
  lemma SavedFieldPersists(st: State, fs: Files, code: int, value: string, env: Env)
    requires PlainPaths(env) && SafeConfig(st.config)
    requires Storable(value) && '\'' !in value && NoBackslash(value)
    ensures var r := SaveUnameField(st, code, value, Returned(0), env, None);
      && r.job.Some? && |r.job.value| == 1
      && Exec(fs, r.job.value[0]).Some?
      && LoadUnameConfigData(Cat(Exec(fs, r.job.value[0]).value, UnamePath(env))) == r.state.config
  {
    var r := SaveUnameField(st, code, value, Returned(0), env, None);
    var c := r.state.config;
    assert forall f :: c.Get(f) == value || c.Get(f) == st.config.Get(f);
    assert SafeConfig(c);
    UnameSaveThenLoad(fs, c, env);
  }
}

=== FILE: indent.dfy ===
/** Kotlin's `String.trimIndent()`, which `HideViewModel` applies at run time
    to its interpolated uname template. */
module Indent {
  import opened Text
  import opened Lines

  /** The smallest indent over the non-blank lines, `None` when every line is
      blank (Kotlin's `minOrNull()`). */
  function MinIndent(ls: seq<string>): (r: Option<nat>)
    ensures r.None? <==> forall k :: 0 <= k < |ls| ==> IsBlank(ls[k])
    ensures r.Some? ==> forall k :: 0 <= k < |ls| && !IsBlank(ls[k]) ==> r.value <= IndentWidth(ls[k])
    ensures r.Some? ==> exists k :: 0 <= k < |ls| && !IsBlank(ls[k]) && IndentWidth(ls[k]) == r.value
    decreases |ls|
  {
    if ls == [] then None
    else
      var rest := MinIndent(ls[1..]);
      assert forall k :: 1 <= k < |ls| ==> ls[k] == ls[1..][k - 1];
      if IsBlank(ls[0]) then rest
      else
        var w := IndentWidth(ls[0]);
        match rest
        case None => Some(w)
        case Some(m) => Some(if w <= m then w else m)
  }

  /** The line filter and cut of `trimIndent`: the first and the last line are
      dropped when blank, and every other line loses its first `n` characters. */
  function Reindent(ls: seq<string>, n: nat): (r: seq<string>)
    ensures |r| <= |ls|
  {
    if ls == [] then []
    else
      var start := if IsBlank(ls[0]) then 1 else 0;
      var end := if |ls| > 1 && IsBlank(ls[|ls| - 1]) then |ls| - 1 else |ls|;
      seq(end - start, i requires 0 <= i < end - start => Drop(ls[start + i], n))
  }

  /** Kotlin's `trimIndent()`, that is `replaceIndent("")`. */
  function TrimIndent(s: string): string {
    var ls := SplitLines(s);
    var n := match MinIndent(ls) case None => 0 case Some(m) => m;
    JoinSep(Reindent(ls, n), "\n")
  }

  /** A line of a block body: non-empty, starting with a non-whitespace
      character, without terminators. */
  predicate BodyLine(b: string) {
    b != [] && !IsWhitespace(b[0]) && IsLine(b)
  }

  /** The lines of a raw block literal: a blank opening line, the body lines
      shifted right by `n` spaces, a blank closing line. */
  function Block(first: string, body: seq<string>, last: string, n: nat): (r: seq<string>)
    ensures |r| == |body| + 2
    ensures r[0] == first && r[|r| - 1] == last
    ensures forall k :: 1 <= k <= |body| ==> r[k] == Spaces(n) + body[k - 1]
  {
    [first] + seq(|body|, i requires 0 <= i < |body| => Spaces(n) + body[i]) + [last]
  }

  lemma BlockLines(first: string, body: seq<string>, last: string, n: nat)
    requires IsLine(first) && IsLine(last)
    requires forall i :: 0 <= i < |body| ==> BodyLine(body[i])
    ensures AllLines(Block(first, body, last, n))
  {
    var ls := Block(first, body, last, n);
    forall k | 1 <= k <= |body| ensures IsLine(ls[k]) {
      var b := body[k - 1];
      assert BodyLine(b);
      forall j | 0 <= j < |ls[k]| ensures !IsTerminator(ls[k][j]) {
        if j >= n { assert ls[k][j] == b[j - n]; }
      }
    }
  }

  lemma BlockIndents(first: string, body: seq<string>, last: string, n: nat)
    requires forall i :: 0 <= i < |body| ==> BodyLine(body[i])
    ensures forall k :: 1 <= k <= |body| ==>
      !IsBlank(Block(first, body, last, n)[k]) && IndentWidth(Block(first, body, last, n)[k]) == n
  {
    var ls := Block(first, body, last, n);
    forall k | 1 <= k <= |body| ensures !IsBlank(ls[k]) && IndentWidth(ls[k]) == n {
      var b := body[k - 1];
      assert BodyLine(b);
      IndentAfterSpaces(n, b);
      assert ls[k][n] == b[0];
    }
  }

  lemma BlockMinIndent(first: string, body: seq<string>, last: string, n: nat)
    requires IsBlank(first) && IsBlank(last)
    requires |body| >= 1
    requires forall i :: 0 <= i < |body| ==> BodyLine(body[i])
    ensures MinIndent(Block(first, body, last, n)) == Some(n)
  {
    var ls := Block(first, body, last, n);
    BlockIndents(first, body, last, n);
    var m := MinIndent(ls);
    assert !IsBlank(ls[1]);
    assert m.Some? && m.value <= n;
    var k :| 0 <= k < |ls| && !IsBlank(ls[k]) && IndentWidth(ls[k]) == m.value;
    assert 1 <= k <= |body|;
  }

  lemma BlockReindent(first: string, body: seq<string>, last: string, n: nat)
    requires IsBlank(first) && IsBlank(last)
    requires forall i :: 0 <= i < |body| ==> BodyLine(body[i])
    ensures Reindent(Block(first, body, last, n), n) == body
  {
    var ls := Block(first, body, last, n);
    var r := Reindent(ls, n);
    assert |r| == |body|;
    forall i | 0 <= i < |body| ensures r[i] == body[i] {
      assert r[i] == Drop(ls[1 + i], n);
      assert ls[1 + i] == Spaces(n) + body[i];
    }
  }

  /** A raw block literal whose opening and closing lines are blank and whose
      body lines all sit at the same indent `n` comes out of `trimIndent` as
      its body lines joined by "\n". */
  lemma TrimIndentBlock(first: string, body: seq<string>, last: string, n: nat)
    requires IsLine(first) && IsBlank(first)
    requires IsLine(last) && IsBlank(last)
    requires |body| >= 1
    requires forall i :: 0 <= i < |body| ==> BodyLine(body[i])
    ensures TrimIndent(JoinSep(Block(first, body, last, n), "\n")) == JoinSep(body, "\n")
  {
    var ls := Block(first, body, last, n);
    BlockLines(first, body, last, n);
    SplitLinesJoin(ls);
    BlockMinIndent(first, body, last, n);
    BlockReindent(first, body, last, n);
  }
}

=== FILE: lines.dfy ===
/** The two ways the source cuts text into lines: `BufferedReader.readLine`
    (behind `File.forEachLine` and the shell library's captured output) and
    Kotlin's `String.lines()` (behind `trimIndent`). Both treat "\n", "\r" and
    "\r\n" as line terminators; they differ only at the end of the text. */
module Lines {
  import opened Text

  predicate IsTerminator(c: char) {
    c == '\n' || c == '\r'
  }

  /** A single line: no terminator inside. */
  predicate IsLine(s: string) {
    forall i :: 0 <= i < |s| ==> !IsTerminator(s[i])
  }

  predicate AllLines(ls: seq<string>) {
    forall k :: 0 <= k < |ls| ==> IsLine(ls[k])
  }

  /** Position of the first terminator, or `|s|` when there is none. */
  function LineEnd(s: string): (r: nat)
    ensures r <= |s|
    ensures r < |s| ==> IsTerminator(s[r])
    ensures IsLine(s[..r])
    decreases |s|
  {
    if s == [] || IsTerminator(s[0]) then 0
    else
      var k := LineEnd(s[1..]);
      assert s[..k + 1] == [s[0]] + s[1..][..k];
      k + 1
  }

  /** Length of the terminator at `i`: two for "\r\n", one otherwise. */
  function TerminatorLength(s: string, i: nat): (n: nat)
    requires i < |s| && IsTerminator(s[i])
    ensures 1 <= n <= 2 && i + n <= |s|
    ensures n == 2 <==> (s[i] == '\r' && i + 1 < |s| && s[i + 1] == '\n')
  {
    if s[i] == '\r' && i + 1 < |s| && s[i + 1] == '\n' then 2 else 1
  }

  /** `BufferedReader.readLine` applied until end of stream: the text after the
      last terminator is a line only if it is non-empty. */
  function ReadLines(s: string): (r: seq<string>)
    ensures AllLines(r)
    ensures s == [] <==> r == []
    decreases |s|
  {
    if s == [] then []
    else
      var i := LineEnd(s);
      if i == |s| then
        assert s[..i] == s;
        [s]
      else
        [s[..i]] + ReadLines(s[i + TerminatorLength(s, i)..])
  }

  /** Kotlin's `lines()`: split at every terminator, keeping the (possibly
      empty) text after the last one, so there is always at least one line. */
  function SplitLines(s: string): (r: seq<string>)
    ensures |r| >= 1
    ensures AllLines(r)
    decreases |s|
  {
    var i := LineEnd(s);
    if i == |s| then
      assert s[..i] == s;
      [s]
    else
      [s[..i]] + SplitLines(s[i + TerminatorLength(s, i)..])
  }

  /** Every line followed by "\n": what a run of `echo` commands appends. */
  function Terminated(ls: seq<string>): (r: string)
    ensures |ls| > 0 ==> |r| > 0 && r[|r| - 1] == '\n'
    decreases |ls|
  {
    if ls == [] then [] else ls[0] + "\n" + Terminated(ls[1..])
  }

  /** One more line at the end. */
  lemma {:induction false} TerminatedSnoc(ls: seq<string>, l: string)
    ensures Terminated(ls + [l]) == Terminated(ls) + l + "\n"
    decreases |ls|
  {
    if ls == [] {
      assert [] + [l] == [l];
    } else {
      assert (ls + [l])[0] == ls[0];
      assert (ls + [l])[1..] == ls[1..] + [l];
      TerminatedSnoc(ls[1..], l);
    }
  }

  /** The first terminator of `a + b` is the one `b` starts with, if `a`
      is a single line. */
  lemma {:induction false} LineEndAt(a: string, b: string)
    requires IsLine(a)
    requires b != [] && IsTerminator(b[0])
    ensures LineEnd(a + b) == |a|
    decreases |a|
  {
    if a != [] {
      assert (a + b)[1..] == a[1..] + b;
      LineEndAt(a[1..], b);
    }
  }

  /** A single line with nothing after it is its own line end. */
  lemma LineEndWhole(a: string)
    requires IsLine(a)
    ensures LineEnd(a) == |a|
  {
  }

  /** One line and its "\n" in front of the rest read as that line first. */
  lemma ReadLinesHead(l: string, rest: string)
    requires IsLine(l)
    ensures ReadLines(l + ("\n" + rest)) == [l] + ReadLines(rest)
  {
    var s := l + ("\n" + rest);
    var n := |l|;
    LineEndAt(l, "\n" + rest);
    assert s[n] == '\n';
    assert TerminatorLength(s, n) == 1;
    assert s[..n] == l;
    assert s[n + 1..] == rest;
  }

  /** Reading back the output of a run of `echo` commands gives exactly the
      lines that were echoed. */
  lemma {:induction false} ReadLinesTerminated(ls: seq<string>)
    requires AllLines(ls)
    ensures ReadLines(Terminated(ls)) == ls
    decreases |ls|
  {
    if ls != [] {
      var rest := Terminated(ls[1..]);
      assert Terminated(ls) == ls[0] + ("\n" + rest);
      ReadLinesHead(ls[0], rest);
      ReadLinesTerminated(ls[1..]);
      assert ls == [ls[0]] + ls[1..];
    }
  }

  lemma SplitLinesHead(l: string, rest: string)
    requires IsLine(l)
    ensures SplitLines(l + ("\n" + rest)) == [l] + SplitLines(rest)
  {
    var s := l + ("\n" + rest);
    var n := |l|;
    LineEndAt(l, "\n" + rest);
    assert s[n] == '\n';
    assert TerminatorLength(s, n) == 1;
    assert s[..n] == l;
    assert s[n + 1..] == rest;
  }

  /** `lines()` undoes `joinToString("\n")` on lines without terminators. */
  lemma {:induction false} SplitLinesJoin(ls: seq<string>)
    requires |ls| >= 1
    requires AllLines(ls)
    ensures SplitLines(JoinSep(ls, "\n")) == ls
    decreases |ls|
  {
    if |ls| == 1 {
      LineEndWhole(ls[0]);
      assert ls[0][..|ls[0]|] == ls[0];
    } else {
      var rest := JoinSep(ls[1..], "\n");
      assert JoinSep(ls, "\n") == ls[0] + ("\n" + rest);
      SplitLinesHead(ls[0], rest);
      SplitLinesJoin(ls[1..]);
      assert ls == [ls[0]] + ls[1..];
    }
  }

  /** Joining with "\n" and adding one final "\n" is the terminated form. */
  lemma {:induction false} JoinThenNewline(ls: seq<string>)
    requires |ls| >= 1
    ensures JoinSep(ls, "\n") + "\n" == Terminated(ls)
    decreases |ls|
  {
    if |ls| > 1 {
      JoinThenNewline(ls[1..]);
      assert JoinSep(ls, "\n") + "\n" == ls[0] + "\n" + (JoinSep(ls[1..], "\n") + "\n");
    }
  }

  lemma TerminatedOne(ls: seq<string>)
    requires |ls| == 1
    ensures Terminated(ls) == ls[0] + "\n"
  {
    assert ls[1..] == [];
  }

  lemma SnocPrefix(ls: seq<string>, k: nat)
    requires 1 <= k <= |ls|
    ensures Terminated(ls[..k]) == Terminated(ls[..k - 1]) + (ls[k - 1] + "\n")
  {
    assert ls[..k] == ls[..k - 1] + [ls[k - 1]];
    TerminatedSnoc(ls[..k - 1], ls[k - 1]);
  }
}

=== FILE: root_shell.dfy ===
/** The privileged shell of `YAPatchCli.kt`: the four-tier fallback that
    builds it, the process-wide default and global-mount shells with
    `refresh`, and the `apd` command lines built for module management.
    Whether a spawn succeeds is an oracle over the argv; the shell's own
    work is not modelled. */
module RootShell {
  import opened Text
  import PosixShell

  type Argv = seq<string>

  /** The values the candidates are built from: `SUPERCMD`, the super key,
      `MAGISK_SCONTEXT`, the path of `libkpatch.so` and `APD_PATH`. */
  datatype Env = Env(superCmd: string, superKey: string, scontext: string, kpatchPath: string, apdPath: string)

  // ---------------------------------------------------------------------
  // The fallback chain
  // ---------------------------------------------------------------------

  /** Tier 1: the su helper with the super key, the same for both mounts. */
  function SuperArgv(env: Env): Argv {
    [env.superCmd, env.superKey, "-Z", env.scontext]
  }

  /** Tier 2: the compat helper inside `libkpatch.so`. */
  function KpatchArgv(env: Env, globalMnt: bool): Argv {
    [env.kpatchPath, env.superKey, "su", "-Z", env.scontext] + (if globalMnt then ["--mount-master"] else [])
  }

  /** Tier 3: plain `su`. */
  function SuArgv(globalMnt: bool): Argv {
    if globalMnt then ["su", "-mm"] else ["su"]
  }

  /** Tier 4, the unguarded last resort. */
  const ShArgv: Argv := ["sh"]

  /** `createRootShell(globalMnt)`'s candidates, in the order tried. */
  function Candidates(env: Env, globalMnt: bool): (r: seq<Argv>)
    ensures |r| == 4 && r[3] == ShArgv
  {
    [SuperArgv(env), KpatchArgv(env, globalMnt), SuArgv(globalMnt), ShArgv]
  }

  /** `tryGetRootShell()`'s candidates. */
  function TryCandidates(env: Env): (r: seq<Argv>)
    ensures |r| == 4 && r[3] == ShArgv
  {
    [SuperArgv(env), [env.kpatchPath, env.superKey, "su", "-Z", env.scontext], ["su"], ShArgv]
  }

  /** The argv tried, in order, and the one that built, if any. */
  datatype Attempt = Attempt(tried: seq<Argv>, built: Option<Argv>)

  /** First success wins: try each candidate until one builds. With every
      candidate failing, the last failure escapes to the caller (`built` is
      `None`). */
  function Fallback(cands: seq<Argv>, spawns: Argv -> bool): (r: Attempt)
    ensures |r.tried| <= |cands| && r.tried == cands[..|r.tried|]
    ensures forall i :: 0 <= i < |r.tried| - 1 ==> !spawns(r.tried[i])
    ensures r.built.Some? ==> |r.tried| > 0 && r.built.value == r.tried[|r.tried| - 1] && spawns(r.built.value)
    ensures r.built.None? ==> r.tried == cands && forall i :: 0 <= i < |cands| ==> !spawns(cands[i])
    decreases |cands|
  {
    if cands == [] then Attempt([], None)
    else if spawns(cands[0]) then Attempt([cands[0]], Some(cands[0]))
    else
      var rest := Fallback(cands[1..], spawns);
      assert forall i :: 1 <= i < |cands| ==> cands[i] == cands[1..][i - 1];
      Attempt([cands[0]] + rest.tried, rest.built)
  }

  /** The independent description: the result is the candidate at the first
      index that spawns, after trying exactly the candidates up to it. */
  lemma {:induction false} FallbackFirst(cands: seq<Argv>, spawns: Argv -> bool, i: nat)
    requires i < |cands| && spawns(cands[i])
    requires forall j :: 0 <= j < i ==> !spawns(cands[j])
    ensures Fallback(cands, spawns) == Attempt(cands[..i + 1], Some(cands[i]))
    decreases i
  {
    if i > 0 {
      assert !spawns(cands[0]);
      assert forall j :: 0 <= j < i - 1 ==> cands[1..][j] == cands[j + 1];
      FallbackFirst(cands[1..], spawns, i - 1);
      assert cands[..i + 1] == [cands[0]] + cands[1..][..i];
    }
  }

  /** `i` is the first index whose candidate spawns. */
  predicate FirstSpawning(cands: seq<Argv>, spawns: Argv -> bool, i: int) {
    0 <= i < |cands| && spawns(cands[i]) && forall j :: 0 <= j < i ==> !spawns(cands[j])
  }

  /** What `Fallback` builds sits at the first spawning index. */
  lemma FallbackBuildsFirst(cands: seq<Argv>, spawns: Argv -> bool)
    ensures var a := Fallback(cands, spawns);
      a.built.Some? ==> FirstSpawning(cands, spawns, |a.tried| - 1) && a.built.value == cands[|a.tried| - 1]
  {
    var a := Fallback(cands, spawns);
    if a.built.Some? {
      var i := |a.tried| - 1;
      forall j | 0 <= j < i
        ensures !spawns(cands[j])
      {
        assert a.tried[j] == cands[j];
      }
      assert a.tried[i] == cands[i];
    }
  }

  /** A shell as the builder returns it: its argv, whether
      `RootShellInitializer` (the `PATH` export) runs on it, and a serial
      telling apart shells built at different times. */
  datatype Shell = Shell(argv: Argv, initialized: bool, serial: nat)

  /** `createRootShell(globalMnt)`; `None` when even `sh` fails and the
      builder's exception escapes. */
  function CreateRootShell(env: Env, globalMnt: bool, spawns: Argv -> bool, serial: nat): (r: Option<Shell>)
    ensures r.Some? ==> r.value.initialized && r.value.serial == serial && spawns(r.value.argv)
    ensures r.Some? ==> r.value.argv in Candidates(env, globalMnt)
    ensures r.Some? ==> exists i :: FirstSpawning(Candidates(env, globalMnt), spawns, i) && r.value.argv == Candidates(env, globalMnt)[i]
    ensures r.None? <==> forall i :: 0 <= i < 4 ==> !spawns(Candidates(env, globalMnt)[i])
    ensures spawns(ShArgv) ==> r.Some?
  {
    var a := Fallback(Candidates(env, globalMnt), spawns);
    FallbackBuildsFirst(Candidates(env, globalMnt), spawns);
    match a.built
    case None => None
    case Some(argv) => Some(Shell(argv, true, serial))
  }

  /** `tryGetRootShell()`: same order, no mount flags, no initializer. */
  function TryGetRootShell(env: Env, spawns: Argv -> bool, serial: nat): (r: Option<Shell>)
    ensures r.Some? ==> !r.value.initialized && r.value.serial == serial && spawns(r.value.argv)
    ensures r.Some? ==> r.value.argv in TryCandidates(env)
    ensures r.Some? ==> exists i :: FirstSpawning(TryCandidates(env), spawns, i) && r.value.argv == TryCandidates(env)[i]
    ensures r.None? <==> forall i :: 0 <= i < 4 ==> !spawns(TryCandidates(env)[i])
    ensures spawns(ShArgv) ==> r.Some?
  {
    var a := Fallback(TryCandidates(env), spawns);
    FallbackBuildsFirst(TryCandidates(env), spawns);
    match a.built
    case None => None
    case Some(argv) => Some(Shell(argv, false, serial))
  }

  /** Tier 1 ignores `globalMnt`; tier 2 gains `--mount-master` and tier 3
      gains `-mm` exactly when it is set. */
  lemma MountFlags(env: Env)
    ensures Candidates(env, true)[0] == Candidates(env, false)[0]
    ensures Candidates(env, true)[1] == Candidates(env, false)[1] + ["--mount-master"]
    ensures Candidates(env, true)[2] == Candidates(env, false)[2] + ["-mm"]
    ensures |Candidates(env, false)[1]| == 5 && Candidates(env, false)[2] == ["su"]
  {
  }

  /** `tryGetRootShell` tries what `createRootShell(false)` tries, and differs
      only in skipping the initializer. */
  lemma TryMatchesCreate(env: Env, spawns: Argv -> bool, serial: nat)
    ensures TryCandidates(env) == Candidates(env, false)
    ensures TryGetRootShell(env, spawns, serial).None? == CreateRootShell(env, false, spawns, serial).None?
    ensures TryGetRootShell(env, spawns, serial).Some? ==>
      CreateRootShell(env, false, spawns, serial).value == TryGetRootShell(env, spawns, serial).value.(initialized := true)
  {
    assert KpatchArgv(env, false) == [env.kpatchPath, env.superKey, "su", "-Z", env.scontext];
  }

  /** When the su helper spawns, it is used, whatever `globalMnt` says. */
  lemma SuperFirst(env: Env, globalMnt: bool, spawns: Argv -> bool, serial: nat)
    requires spawns(SuperArgv(env))
    ensures CreateRootShell(env, globalMnt, spawns, serial) == Some(Shell(SuperArgv(env), true, serial))
  {
    FallbackFirst(Candidates(env, globalMnt), spawns, 0);
  }

  /** `sh` is reached only after the three root tiers failed, and then the
      outcome is whatever spawning `sh` gives. */
  lemma ShLast(env: Env, globalMnt: bool, spawns: Argv -> bool, serial: nat)
    requires forall i :: 0 <= i < 3 ==> !spawns(Candidates(env, globalMnt)[i])
    ensures Fallback(Candidates(env, globalMnt), spawns).tried == Candidates(env, globalMnt)
    ensures CreateRootShell(env, globalMnt, spawns, serial) ==
      if spawns(ShArgv) then Some(Shell(ShArgv, true, serial)) else None
  {
    var cands := Candidates(env, globalMnt);
    if spawns(ShArgv) {
      FallbackFirst(cands, spawns, 3);
      assert cands[..4] == cands;
    }
  }

  // ---------------------------------------------------------------------
  // The `YAPatchCli` object
  // ---------------------------------------------------------------------

  /** `SHELL`, `GLOBAL_MNT_SHELL`, and the number of shells built so far. */
  datatype Cli = Cli(shell: Shell, globalShell: Shell, built: nat)

  /** Every live shell was built by this object, and the two are distinct. */
  predicate Valid(cli: Cli) {
    cli.shell.serial < cli.built && cli.globalShell.serial < cli.built && cli.shell.serial != cli.globalShell.serial
  }

  /** The object's initialiser: the default shell first, then the
      global-mount one; either failing fails the whole object. */
  function Init(env: Env, spawns: Argv -> bool): (r: Option<Cli>)
    ensures r.Some? ==> Valid(r.value) && r.value.shell.argv in Candidates(env, false) && r.value.globalShell.argv in Candidates(env, true)
    ensures r.None? <==> CreateRootShell(env, false, spawns, 0).None? || CreateRootShell(env, true, spawns, 1).None?
    ensures r.Some? ==>
      && r.value.shell == CreateRootShell(env, false, spawns, 0).value
      && r.value.globalShell == CreateRootShell(env, true, spawns, 1).value
      && r.value.built == 2
    ensures spawns(ShArgv) ==> r.Some?
  {
    var s := CreateRootShell(env, false, spawns, 0);
    var g := CreateRootShell(env, true, spawns, 1);
    if s.None? || g.None? then None else Some(Cli(s.value, g.value, 2))
  }

  /** What a refresh does to the outside world, in order. */
  datatype Event = Installed(shell: Shell) | Closed(shell: Shell)

  datatype Refreshed = Refreshed(cli: Cli, events: seq<Event>)

  /** `refresh()`: build a new default shell, install it, then close the old
      one. If building throws, nothing changes and nothing is closed. */
  function Refresh(cli: Cli, env: Env, spawns: Argv -> bool): (r: Refreshed)
    ensures r.cli.globalShell == cli.globalShell
    ensures CreateRootShell(env, false, spawns, cli.built).Some? ==>
      && r.cli.shell == CreateRootShell(env, false, spawns, cli.built).value
      && r.cli.shell.serial == cli.built && r.cli.built == cli.built + 1
      && r.events == [Installed(r.cli.shell), Closed(cli.shell)]
    ensures CreateRootShell(env, false, spawns, cli.built).None? ==> r == Refreshed(cli, [])
  {
    match CreateRootShell(env, false, spawns, cli.built)
    case None => Refreshed(cli, [])
    case Some(s) => Refreshed(Cli(s, cli.globalShell, cli.built + 1), [Installed(s), Closed(cli.shell)])
  }

  /** `getRootShell(globalMnt)`. */
  function GetRootShell(cli: Cli, globalMnt: bool): (r: Shell)
    ensures Valid(cli) ==> r.serial < cli.built
    ensures Valid(cli) ==> (r == cli.globalShell <==> globalMnt)
    ensures globalMnt ==> r == cli.globalShell
    ensures !globalMnt ==> r == cli.shell
  {
    if globalMnt then cli.globalShell else cli.shell
  }

  /** A refresh keeps the object valid, closes only the shell it replaced,
      never the one now in use or the global-mount one, and leaves
      `getRootShell(true)` alone. */
  lemma RefreshKeepsValid(cli: Cli, env: Env, spawns: Argv -> bool)
    requires Valid(cli)
    ensures var r := Refresh(cli, env, spawns);
      && Valid(r.cli)
      && GetRootShell(r.cli, true) == GetRootShell(cli, true)
      && (forall i :: 0 <= i < |r.events| && r.events[i].Closed? ==>
            r.events[i].shell == GetRootShell(cli, false) && r.events[i].shell != GetRootShell(r.cli, false)
            && r.events[i].shell != GetRootShell(r.cli, true))
  {
  }

  // ---------------------------------------------------------------------
  // `apd` command lines
  // ---------------------------------------------------------------------

  /** Where a job runs: the default shell, or a fresh shell closed after the
      job (`withNewRootShell`). */
  datatype On = DefaultShell | FreshShell(globalMnt: bool)

  datatype Job = Job(on: On, command: string)

  /** `execApd(args, newShell)`: `"<APD_PATH> <args>"`. */
  function ExecApd(env: Env, args: string, newShell: bool): (r: Job)
    ensures r.on == if newShell then FreshShell(false) else DefaultShell
    ensures |r.command| == |env.apdPath| + 1 + |args| && r.command[|env.apdPath|] == ' '
    ensures r.command[..|env.apdPath|] == env.apdPath && r.command[|env.apdPath| + 1..] == args
  {
    Job(if newShell then FreshShell(false) else DefaultShell, env.apdPath + " " + args)
  }

  /** `toggleModule`'s arguments. */
  function ToggleArgs(id: string, enable: bool): string {
    (if enable then "module enable " else "module disable ") + id
  }

  function ToggleModule(env: Env, id: string, enable: bool): (r: Job)
    ensures r.on == FreshShell(false)
  {
    ExecApd(env, ToggleArgs(id, enable), true)
  }

  /** `uninstallModule`'s arguments. */
  function UninstallArgs(id: string): string {
    "module uninstall " + id
  }

  function UninstallModule(env: Env, id: string): (r: Job)
    ensures r.on == FreshShell(false)
  {
    ExecApd(env, UninstallArgs(id), true)
  }

  /** The two jobs of `listModules`: the listing on the default shell, then
      the `ori.img` move on a fresh shell. */
  function ListModulesJobs(env: Env): (r: seq<Job>)
    ensures |r| == 2 && r[0].on == DefaultShell && r[1].on == FreshShell(false)
    ensures r[0].command == env.apdPath + " module list"
  {
    [ExecApd(env, "module list", false), Job(FreshShell(false), OriImageMove)]
  }

  /** The `ori.img` move `listModules` runs as a side job. */
  const OriImageMove: string :=
    "cp /data/user/*/me.yervant.yapatch/patch/ori.img /data/adb/ap/ && rm /data/user/*/me.yervant.yapatch/patch/ori.img"

  /** `listModules()`'s value from the listing's output lines. */
  function ListModules(out: seq<string>): (r: string)
    ensures !IsBlank(r)
    ensures r == "[]" || r == JoinSep(out, "\n")
  {
    var joined := JoinSep(out, "\n");
    if IsBlank(joined) then
      assert !IsWhitespace("[]"[0]);
      "[]"
    else joined
  }

  /** The joined output is blank exactly when every line is. */
  lemma {:induction false} JoinBlank(out: seq<string>)
    ensures IsBlank(JoinSep(out, "\n")) <==> forall i :: 0 <= i < |out| ==> IsBlank(out[i])
    decreases |out|
  {
    if |out| > 1 {
      JoinBlank(out[1..]);
      var rest := JoinSep(out[1..], "\n");
      var j := JoinSep(out, "\n");
      assert j == out[0] + "\n" + rest;
      assert forall k :: 0 <= k < |out[0]| ==> j[k] == out[0][k];
      assert forall k :: 0 <= k < |rest| ==> j[|out[0]| + 1 + k] == rest[k];
      assert forall i :: 1 <= i < |out| ==> out[i] == out[1..][i - 1];
    }
  }

  /** `"[]"` stands in for a listing with nothing but blank lines; any other
      listing comes back joined. */
  lemma ListModulesEmpty(out: seq<string>)
    ensures (forall i :: 0 <= i < |out| ==> IsBlank(out[i])) ==> ListModules(out) == "[]"
    ensures (exists i :: 0 <= i < |out| && !IsBlank(out[i])) ==> ListModules(out) == JoinSep(out, "\n")
  {
    JoinBlank(out);
  }

  /** Enable, disable and uninstall lines differ, and each names its id. */
  lemma ModuleArgsInjective(a: string, x: bool, b: string, y: bool)
    ensures ToggleArgs(a, x) == ToggleArgs(b, y) ==> a == b && x == y
    ensures ToggleArgs(a, x) != UninstallArgs(b)
  {
    var p := if x then "module enable " else "module disable ";
    var q := if y then "module enable " else "module disable ";
    if ToggleArgs(a, x) == ToggleArgs(b, y) {
      assert ToggleArgs(a, x)[7] == p[7] && ToggleArgs(b, y)[7] == q[7];
      assert x == y;
      assert a == ToggleArgs(a, x)[|p|..];
    }
    assert ToggleArgs(a, x)[7] == p[7] && UninstallArgs(b)[7] == 'u';
  }

  lemma ModulePlain()
    ensures PosixShell.PlainWord("module")
  {
  }

  lemma VerbPlain(enable: bool)
    ensures PosixShell.PlainWord(if enable then "enable" else "disable")
  {
  }

  /** A plain word in front of a tokenizable line adds itself as a word. */
  lemma WordThenWords(w: string, rest: string, ts: seq<PosixShell.Token>)
    requires PosixShell.PlainWord(w) && PosixShell.Tokens(rest) == Some(ts)
    ensures PosixShell.Tokens(w + " " + rest) == Some([PosixShell.Word(w)] + ts)
  {
    PosixShell.PlainScansAs(w);
    PosixShell.TokensWordThen(w, w, rest);
  }

  lemma OneWord(w: string)
    requires PosixShell.PlainWord(w)
    ensures PosixShell.Tokens(w) == Some([PosixShell.Word(w)])
  {
    PosixShell.PlainScansAs(w);
    PosixShell.TokensLast(w, w);
  }

  /** Four plain words joined by blanks come out as those four words. */
  lemma FourWords(w1: string, w2: string, w3: string, w4: string)
    requires PosixShell.PlainWord(w1) && PosixShell.PlainWord(w2)
    requires PosixShell.PlainWord(w3) && PosixShell.PlainWord(w4)
    ensures PosixShell.Tokens(w1 + " " + (w2 + " " + (w3 + " " + w4))) ==
      Some([PosixShell.Word(w1), PosixShell.Word(w2), PosixShell.Word(w3), PosixShell.Word(w4)])
  {
    var t4 := [PosixShell.Word(w4)];
    var t3 := [PosixShell.Word(w3)] + t4;
    var t2 := [PosixShell.Word(w2)] + t3;
    OneWord(w4);
    WordThenWords(w3, w4, t4);
    WordThenWords(w2, w3 + " " + w4, t3);
    WordThenWords(w1, w2 + " " + (w3 + " " + w4), t2);
    PosixShell.FourTokens(PosixShell.Word(w1), PosixShell.Word(w2), PosixShell.Word(w3), PosixShell.Word(w4));
  }

  /** The id is pasted in unquoted: for a plain id the shell sees the
      four words `<APD_PATH> module enable|disable <id>`. */
  lemma ToggleWords(env: Env, id: string, enable: bool)
    requires PosixShell.PlainWord(env.apdPath) && PosixShell.PlainWord(id)
    ensures PosixShell.Tokens(ToggleModule(env, id, enable).command) ==
      Some([PosixShell.Word(env.apdPath), PosixShell.Word("module"),
            PosixShell.Word(if enable then "enable" else "disable"), PosixShell.Word(id)])
  {
    var verb := if enable then "enable" else "disable";
    ModulePlain();
    VerbPlain(enable);
    assert ToggleArgs(id, enable) == "module" + " " + (verb + " " + id);
    FourWords(env.apdPath, "module", verb, id);
  }
}

=== FILE: shell.dfy ===
/** The slice of the POSIX Shell Command Language (IEEE Std 1003.1, XCU
    chapter 2) that the configuration writers depend on: quoting with
    backslash and single quotes (sections 2.2.1 and 2.2.2), blank-separated
    words, the output redirections `>` and `>>` (sections 2.7.2 and 2.7.3), and the
    `echo` utility. A command batch is run against a file system modelled as
    a map from path to contents. Anything outside this slice is reported as
    `None`: the model says nothing about it. */
module PosixShell {
  import opened Text
  import opened Lines

  // ---------------------------------------------------------------------
  // Escaping (UnameViewModel.escapeShellArg)
  // ---------------------------------------------------------------------

  /** Number of occurrences of `c` in `s`. */
  function Count(s: string, c: char): nat
    decreases |s|
  {
    if s == [] then 0 else (if s[0] == c then 1 else 0) + Count(s[1..], c)
  }

  lemma {:induction false} CountAbsent(s: string, c: char)
    requires c !in s
    ensures Count(s, c) == 0
    decreases |s|
  {
    if s != [] {
      CountAbsent(s[1..], c);
    }
  }

  /** Every `'` becomes the four characters `'\''`: close the quoted run,
      a backslash-escaped quote, reopen the quoted run. */
  function Escape(s: string): (r: string)
    ensures |r| == |s| + 3 * Count(s, '\'')
    ensures Count(s, '\'') == 0 ==> r == s
    decreases |s|
  {
    if s == [] then []
    else (if s[0] == '\'' then "'\\''" else [s[0]]) + Escape(s[1..])
  }

  /** Escaping works character by character. */
  lemma {:induction false} EscapeAppend(a: string, b: string)
    ensures Escape(a + b) == Escape(a) + Escape(b)
    decreases |a|
  {
    if a != [] {
      assert (a + b)[0] == a[0];
      assert (a + b)[1..] == a[1..] + b;
      EscapeAppend(a[1..], b);
    } else {
      assert a + b == b;
    }
  }

  /** The source's quoting idiom: the escaped text between single quotes. */
  function QuoteWord(s: string): string {
    "'" + Escape(s) + "'"
  }

  // ---------------------------------------------------------------------
  // Token recognition and quote removal
  // ---------------------------------------------------------------------

  predicate IsBlankChar(c: char) {
    c == ' ' || c == '\t'
  }

  /** Unquoted characters whose meaning (expansion, other operators, globbing,
      comments, command separation) lies outside the modelled slice. */
  predicate IsUnsupported(c: char) {
    c in "\"$`;&|<()*?[#~\n"
  }

  /** Where a word ends: end of input, a blank, or a redirection operator. */
  predicate Boundary(rest: string) {
    rest == [] || IsBlankChar(rest[0]) || rest[0] == '>'
  }

  datatype Scan = Scan(word: string, rest: string)

  datatype Token = Word(text: string) | Redirect(append: bool)

  /** Reads the rest of a word outside quotes; `acc` holds the text so far,
      after quote removal. */
  function ScanWord(s: string, acc: string): (r: Option<Scan>)
    ensures r.Some? ==> |r.value.rest| <= |s|
    ensures r.Some? ==> Boundary(r.value.rest)
    ensures r.Some? && s != [] && !Boundary(s) ==> |r.value.rest| < |s|
    decreases |s|, 1
  {
    if Boundary(s) then Some(Scan(acc, s))
    else if s[0] == '\'' then ScanQuoted(s[1..], acc)
    else if s[0] == '\\' then
      if |s| < 2 then None
      else if s[1] == '\n' then ScanWord(s[2..], acc)
      else ScanWord(s[2..], acc + [s[1]])
    else if IsUnsupported(s[0]) then None
    else ScanWord(s[1..], acc + [s[0]])
  }

  /** Reads inside single quotes: every character stands for itself up to
      the next `'`; an unclosed quote is not a complete word. */
  function ScanQuoted(s: string, acc: string): (r: Option<Scan>)
    ensures r.Some? ==> |r.value.rest| < |s|
    ensures r.Some? ==> Boundary(r.value.rest)
    decreases |s|, 0
  {
    if s == [] then None
    else if s[0] == '\'' then ScanWord(s[1..], acc)
    else ScanQuoted(s[1..], acc + [s[0]])
  }

  function Prepend(t: Token, ts: Option<seq<Token>>): Option<seq<Token>> {
    match ts
    case None => None
    case Some(rest) => Some([t] + rest)
  }

  /** The tokens of one command line, quotes removed. */
  function Tokens(s: string): Option<seq<Token>>
    decreases |s|
  {
    if s == [] then Some([])
    else if IsBlankChar(s[0]) then Tokens(s[1..])
    else if s[0] == '>' then
      if |s| >= 2 && s[1] == '>' then Prepend(Redirect(true), Tokens(s[2..]))
      else Prepend(Redirect(false), Tokens(s[1..]))
    else
      match ScanWord(s, [])
      case None => None
      case Some(sc) => Prepend(Word(sc.word), Tokens(sc.rest))
  }

  /** `w` is a complete word whose text after quote removal is `text`,
      whatever follows it up to a word boundary. */
  ghost predicate ScansAs(w: string, text: string) {
    && w != [] && !Boundary(w)
    && forall rest :: Boundary(rest) ==> ScanWord(w + rest, []) == Some(Scan(text, rest))
  }

  lemma StepOpenQuote(t: string, acc: string)
    ensures ScanWord("'" + t, acc) == ScanQuoted(t, acc)
  {
    assert ("'" + t)[1..] == t;
  }

  lemma StepEscapedChar(c: char, t: string, acc: string)
    requires c != '\n'
    ensures ScanWord("\\" + [c] + t, acc) == ScanWord(t, acc + [c])
  {
    var u := "\\" + [c] + t;
    assert u[0] == '\\' && u[1] == c;
    assert u[2..] == t;
  }

  lemma StepQuotedChar(c: char, t: string, acc: string)
    requires c != '\''
    ensures ScanQuoted([c] + t, acc) == ScanQuoted(t, acc + [c])
  {
    assert ([c] + t)[1..] == t;
  }

  /** A quote that is never closed: no word comes out. */
  lemma {:induction false} UnclosedQuote(t: string, acc: string)
    requires '\'' !in t
    ensures ScanQuoted(t, acc) == None
    decreases |t|
  {
    if t != [] {
      UnclosedQuote(t[1..], acc + [t[0]]);
    }
  }

  /** Quoted text without a closing quote in it is taken over as is. */
  lemma {:induction false} ScanQuotedRun(a: string, t: string, acc: string)
    requires '\'' !in a
    ensures ScanQuoted(a + t, acc) == ScanQuoted(t, acc + a)
    decreases |a|
  {
    if a == [] {
      assert a + t == t;
      assert acc + a == acc;
    } else {
      assert (a + t)[0] == a[0];
      assert (a + t)[1..] == a[1..] + t;
      ScanQuotedRun(a[1..], t, acc + [a[0]]);
      AppendHead(acc, a);
    }
  }

  lemma StepCloseQuote(t: string, acc: string)
    ensures ScanQuoted("'" + t, acc) == ScanWord(t, acc)
  {
    assert ("'" + t)[1..] == t;
  }

  lemma CloseBeforeEscapedQuote(t: string, acc: string)
    ensures ScanQuoted("'\\''" + t, acc) == ScanWord("\\" + ['\''] + ("'" + t), acc)
  {
    assert "'\\''" + t == "'" + ("\\" + ['\''] + ("'" + t));
    StepCloseQuote("\\" + ['\''] + ("'" + t), acc);
  }

  /** `'\''` inside a quoted run contributes one quote and stays quoted. */
  lemma EscapedQuoteStep(t: string, acc: string)
    ensures ScanQuoted("'\\''" + t, acc) == ScanQuoted(t, acc + "'")
  {
    CloseBeforeEscapedQuote(t, acc);
    StepEscapedChar('\'', "'" + t, acc);
    StepOpenQuote(t, acc + "'");
  }

  lemma AppendHead(acc: string, s: string)
    requires s != []
    ensures acc + [s[0]] + s[1..] == acc + s
  {
    assert s == [s[0]] + s[1..];
  }

  /** The first character of `s`, as `Escape` writes it. */
  function EscapeHead(c: char): string {
    if c == '\'' then "'\\''" else [c]
  }

  lemma EscapeUnfold(s: string)
    requires s != []
    ensures Escape(s) == EscapeHead(s[0]) + Escape(s[1..])
  {
  }

  lemma Regroup(h: string, e: string, q: string, rest: string)
    ensures (h + e) + q + rest == h + (e + q + rest)
  {
  }

  lemma EscapeCons(s: string, rest: string)
    requires s != []
    ensures Escape(s) + "'" + rest == EscapeHead(s[0]) + (Escape(s[1..]) + "'" + rest)
  {
    EscapeUnfold(s);
    Regroup(EscapeHead(s[0]), Escape(s[1..]), "'", rest);
  }

  lemma ScanEscapeHead(c: char, t: string, acc: string)
    ensures ScanQuoted(EscapeHead(c) + t, acc) == ScanQuoted(t, acc + [c])
  {
    if c == '\'' {
      EscapedQuoteStep(t, acc);
    } else {
      StepQuotedChar(c, t, acc);
    }
  }

  /** The quoted run that `Escape` produces ends exactly at its closing quote
      and yields the original text. */
  lemma {:induction false} ScanEscaped(s: string, rest: string, acc: string)
    ensures ScanQuoted(Escape(s) + "'" + rest, acc) == ScanWord(rest, acc + s)
    decreases |s|
  {
    if s == [] {
      assert Escape(s) + "'" + rest == "'" + rest;
      StepCloseQuote(rest, acc);
      assert acc + s == acc;
    } else {
      EscapeCons(s, rest);
      ScanEscapeHead(s[0], Escape(s[1..]) + "'" + rest, acc);
      ScanEscaped(s[1..], rest, acc + [s[0]]);
      AppendHead(acc, s);
    }
  }

  /** Quote removal undoes the source's quoting of any string: section 2.2.2
      keeps everything between single quotes literal and section 2.2.1 turns
      the backslash-quote into a quote. */
  lemma QuotedScansAs(s: string)
    ensures ScansAs(QuoteWord(s), s)
  {
    forall rest | Boundary(rest)
      ensures ScanWord(QuoteWord(s) + rest, []) == Some(Scan(s, rest))
    {
      QuotedScan(s, rest);
    }
  }

  lemma QuoteWordThen(s: string, rest: string)
    ensures QuoteWord(s) + rest == "'" + (Escape(s) + "'" + rest)
  {
  }

  lemma QuotedScan(s: string, rest: string)
    ensures ScanWord(QuoteWord(s) + rest, []) == ScanWord(rest, s)
  {
    QuoteWordThen(s, rest);
    StepOpenQuote(Escape(s) + "'" + rest, []);
    ScanEscaped(s, rest, []);
    assert [] + s == s;
  }

  /** A word made of ordinary characters only. */
  predicate PlainWord(w: string) {
    && w != []
    && forall i :: 0 <= i < |w| ==>
         !IsBlankChar(w[i]) && w[i] != '>' && w[i] != '\'' && w[i] != '\\' && !IsUnsupported(w[i])
  }

  lemma {:induction false} ScanPlain(w: string, rest: string, acc: string)
    requires forall i :: 0 <= i < |w| ==>
      !IsBlankChar(w[i]) && w[i] != '>' && w[i] != '\'' && w[i] != '\\' && !IsUnsupported(w[i])
    ensures ScanWord(w + rest, acc) == ScanWord(rest, acc + w)
    decreases |w|
  {
    if w == [] {
      assert w + rest == rest;
      assert acc + w == acc;
    } else {
      assert (w + rest)[0] == w[0];
      assert (w + rest)[1..] == w[1..] + rest;
      ScanPlain(w[1..], rest, acc + [w[0]]);
      assert acc + [w[0]] + w[1..] == acc + w;
    }
  }

  lemma PlainScansAs(w: string)
    requires PlainWord(w)
    ensures ScansAs(w, w)
  {
    forall rest | Boundary(rest) ensures ScanWord(w + rest, []) == Some(Scan(w, rest)) {
      ScanPlain(w, rest, []);
      assert [] + w == w;
    }
  }

  /** The single-quoted form of any string is one word whose text is that
      string: the escaping round-trips through the shell. */
  lemma QuoteWordTokens(s: string)
    ensures Tokens(QuoteWord(s)) == Some([Word(s)])
  {
    QuotedScansAs(s);
    TokensLast(QuoteWord(s), s);
  }

  lemma TokensWord(w: string, text: string, rest: string)
    requires ScansAs(w, text) && Boundary(rest)
    ensures Tokens(w + rest) == Prepend(Word(text), Tokens(rest))
  {
    assert ScanWord(w + rest, []) == Some(Scan(text, rest));
    assert (w + rest)[0] == w[0];
  }

  lemma TokensLast(w: string, text: string)
    requires ScansAs(w, text)
    ensures Tokens(w) == Some([Word(text)])
  {
    TokensWord(w, text, []);
    assert w + [] == w;
    assert Tokens([]) == Some([]);
    assert [Word(text)] + [] == [Word(text)];
  }

  lemma TokensWordThen(w: string, text: string, rest: string)
    requires ScansAs(w, text)
    ensures Tokens(w + " " + rest) == Prepend(Word(text), Tokens(rest))
  {
    assert w + " " + rest == w + (" " + rest);
    TokensWord(w, text, " " + rest);
    TokensBlank(rest);
  }

  function RedirectOp(append: bool): string {
    if append then ">>" else ">"
  }

  lemma TokensRedirectThen(append: bool, rest: string)
    ensures Tokens(RedirectOp(append) + " " + rest) == Prepend(Redirect(append), Tokens(rest))
  {
    assert RedirectOp(append) + " " + rest == RedirectOp(append) + (" " + rest);
    TokensRedirect(append, " " + rest);
    TokensBlank(rest);
  }

  lemma TokensBlank(rest: string)
    ensures Tokens(" " + rest) == Tokens(rest)
  {
    assert (" " + rest)[1..] == rest;
  }

  lemma TokensRedirect(append: bool, rest: string)
    requires rest == [] || rest[0] != '>'
    ensures Tokens((if append then ">>" else ">") + rest) == Prepend(Redirect(append), Tokens(rest))
  {
    var s := (if append then ">>" else ">") + rest;
    if append {
      assert s[2..] == rest;
    } else {
      assert s[1..] == rest;
    }
  }

  // ---------------------------------------------------------------------
  // Commands and their effect on files
  // ---------------------------------------------------------------------

  datatype Target = Target(path: string, append: bool)

  /** A simple command: its words and at most one trailing output redirection. */
  datatype Command = Command(words: seq<string>, target: Option<Target>)

  /** The texts of a run of words; `None` if an operator is among them. */
  function WordTexts(ts: seq<Token>): (r: Option<seq<string>>)
    ensures r.Some? ==> |r.value| == |ts|
    ensures r.Some? ==> forall i :: 0 <= i < |ts| ==> ts[i] == Word(r.value[i])
    ensures (forall i :: 0 <= i < |ts| ==> ts[i].Word?) ==> r.Some?
    decreases |ts|
  {
    if ts == [] then Some([])
    else if !ts[0].Word? then None
    else
      match WordTexts(ts[1..])
      case None => None
      case Some(rest) => Some([ts[0].text] + rest)
  }

  /** Words followed by an optional `> path` or `>> path` at the end; other
      redirection shapes are outside the modelled slice. */
  function ParseCommand(ts: seq<Token>): Option<Command> {
    if |ts| >= 2 && ts[|ts| - 2].Redirect? && ts[|ts| - 1].Word? then
      match WordTexts(ts[..|ts| - 2])
      case Some(ws) =>
        if ws == [] then None
        else Some(Command(ws, Some(Target(ts[|ts| - 1].text, ts[|ts| - 2].append))))
      case None => None
    else
      match WordTexts(ts)
      case Some(ws) => if ws == [] then None else Some(Command(ws, None))
      case None => None
  }

  predicate NoBackslash(s: string) {
    '\\' !in s
  }

  /** An operand the Android shell's (mksh) `echo` takes as options rather
      than text: a dash followed by one or more of `n`, `e` and `E`. */
  predicate EchoOptions(s: string) {
    |s| >= 2 && s[0] == '-' && forall k :: 1 <= k < |s| ==> s[k] == 'n' || s[k] == 'e' || s[k] == 'E'
  }

  /** Leading options other than a single `-n`; their effect is not
      modelled. */
  predicate OtherEchoOptions(args: seq<string>) {
    || (|args| > 0 && EchoOptions(args[0]) && args[0] != "-n")
    || (|args| > 1 && args[0] == "-n" && EchoOptions(args[1]))
  }

  /** What `echo` prints. A first operand `-n` suppresses the newline. POSIX
      leaves operands with a backslash implementation-defined (the Android
      shell expands escape sequences in them), so those are not modelled,
      and neither are the other option forms mksh accepts (`-e`, `-E`,
      `-ne`, ...). */
  function EchoOutput(args: seq<string>): (r: Option<string>)
    ensures r.Some? <==> (forall i :: 0 <= i < |args| ==> NoBackslash(args[i])) && !OtherEchoOptions(args)
    ensures r.Some? && |args| > 0 && !EchoOptions(args[0]) ==> r.value == JoinSep(args, " ") + "\n"
  {
    if exists i :: 0 <= i < |args| && !NoBackslash(args[i]) then None
    else if OtherEchoOptions(args) then None
    else if |args| > 0 && args[0] == "-n" then Some(JoinSep(args[1..], " "))
    else Some(JoinSep(args, " ") + "\n")
  }

  /** The option forms: `-e`, `-E`, `-ne` and a `-n` followed by another
      option word are given no reading, while `-n` alone and a word that
      merely starts with a dash are ordinary. */
  lemma EchoOptionForms()
    ensures EchoOutput(["-e"]).None? && EchoOutput(["-E", "x"]).None? && EchoOutput(["-ne"]).None?
    ensures EchoOutput(["-n", "-e"]).None?
    ensures EchoOutput(["-n", "x"]) == Some("x")
    ensures EchoOutput(["-x"]) == Some("-x\n")
  {
    var args := ["-x"];
    assert !EchoOptions(args[0]) by { assert args[0][1] == 'x'; }
    assert EchoOutput(args) == Some("-x" + "\n");
    assert "-x" + "\n" == "-x\n";
    assert !EchoOptions("x");
    assert ["-n", "x"][1..] == ["x"];
  }

  type Files = map<string, string>

  /** Redirected output: `>` replaces the file, `>>` appends, both create. */
  function WriteTo(fs: Files, t: Target, out: string): (r: Files)
    ensures t.path in r
    ensures forall p :: p in fs && p != t.path ==> p in r && r[p] == fs[p]
    ensures forall p :: p in r ==> p in fs || p == t.path
  {
    if t.append then fs[t.path := (if t.path in fs then fs[t.path] else []) + out]
    else fs[t.path := out]
  }

  /** Runs one parsed command. Only `echo` changes files here; every other
      command (`chown`, `chmod`, ...) leaves the contents alone. */
  function Run(fs: Files, c: Command): Option<Files>
    requires c.words != []
  {
    if c.words[0] == "echo" then
      match c.target
      case None => Some(fs)
      case Some(t) =>
        match EchoOutput(c.words[1..])
        case None => None
        case Some(out) => Some(WriteTo(fs, t, out))
    else if c.target.None? then Some(fs)
    else None
  }

  /** Runs one command line. */
  function Exec(fs: Files, line: string): Option<Files> {
    match Tokens(line)
    case None => None
    case Some(ts) =>
      match ParseCommand(ts)
      case None => None
      case Some(c) => Run(fs, c)
  }

  /** Runs a batch in order, as one shell job does. */
  function ExecBatch(fs: Files, lines: seq<string>): Option<Files>
    decreases |lines|
  {
    if lines == [] then Some(fs)
    else
      match Exec(fs, lines[0])
      case None => None
      case Some(fs') => ExecBatch(fs', lines[1..])
  }

  lemma ExecBatchCons(fs: Files, lines: seq<string>, fs': Files)
    requires lines != [] && Exec(fs, lines[0]) == Some(fs')
    ensures ExecBatch(fs, lines) == ExecBatch(fs', lines[1..])
  {
  }

  lemma ExecBatchAppend(fs: Files, a: seq<string>, b: seq<string>)
    ensures ExecBatch(fs, a + b) ==
      match ExecBatch(fs, a) case None => None case Some(fs') => ExecBatch(fs', b)
    decreases |a|
  {
    if a != [] {
      assert (a + b)[1..] == a[1..] + b;
      assert (a + b)[0] == a[0];
      match Exec(fs, a[0])
      case None =>
      case Some(fs') => ExecBatchAppend(fs', a[1..], b);
    } else {
      assert a + b == b;
    }
  }

  /** The outcome of one shell job: success flag and stdout lines. */
  datatype JobResult = Done(success: bool, out: seq<string>) | Threw(message: string)

  /** `cat path`: the file's lines, or a failed job when it does not exist. */
  function Cat(fs: Files, path: string): JobResult {
    if path in fs then Done(true, ReadLines(fs[path])) else Done(false, [])
  }

  // ---------------------------------------------------------------------
  // The command shapes the configuration writers use
  // ---------------------------------------------------------------------

  /** The command line `echo ARG OP TARGET`. */
  function EchoTo(arg: string, append: bool, target: string): string {
    "echo " + arg + " " + RedirectOp(append) + " " + target
  }

  lemma EchoToShape(arg: string, append: bool, target: string)
    ensures EchoTo(arg, append, target) == "echo" + " " + (arg + " " + (RedirectOp(append) + " " + target))
  {
  }

  lemma FourTokens(a: Token, b: Token, c: Token, d: Token)
    ensures [a] + ([b] + ([c] + [d])) == [a, b, c, d]
  {
  }

  lemma RedirectTokens(append: bool, target: string, path: string)
    requires ScansAs(target, path)
    ensures Tokens(RedirectOp(append) + " " + target) == Some([Redirect(append)] + [Word(path)])
  {
    TokensLast(target, path);
    TokensRedirectThen(append, target);
  }

  lemma EchoToTokens(arg: string, text: string, target: string, path: string, append: bool)
    requires ScansAs(arg, text) && ScansAs(target, path)
    ensures Tokens(EchoTo(arg, append, target)) == Some([Word("echo"), Word(text), Redirect(append), Word(path)])
  {
    var r2 := RedirectOp(append) + " " + target;
    var r1 := arg + " " + r2;
    EchoToShape(arg, append, target);
    PlainScansAs("echo");
    RedirectTokens(append, target, path);
    TokensWordThen(arg, text, r2);
    TokensWordThen("echo", "echo", r1);
    FourTokens(Word("echo"), Word(text), Redirect(append), Word(path));
  }

  lemma EchoParse(ts: seq<Token>, text: string, path: string, append: bool)
    requires ts == [Word("echo"), Word(text), Redirect(append), Word(path)]
    ensures ParseCommand(ts) == Some(Command(["echo", text], Some(Target(path, append))))
  {
    assert ts[..|ts| - 2] == [Word("echo"), Word(text)];
    var ws := WordTexts([Word("echo"), Word(text)]);
    assert ws.Some? && |ws.value| == 2 && ws.value[0] == "echo" && ws.value[1] == text;
    assert ws.value == ["echo", text];
  }

  /** `echo ARG > TARGET` and `echo ARG >> TARGET` write the argument and a
      newline. */
  lemma ExecEchoRedirect(fs: Files, arg: string, text: string, target: string, path: string, append: bool)
    requires ScansAs(arg, text) && ScansAs(target, path)
    requires !EchoOptions(text) && NoBackslash(text)
    ensures Exec(fs, EchoTo(arg, append, target)) == Some(WriteTo(fs, Target(path, append), text + "\n"))
  {
    var ts := [Word("echo"), Word(text), Redirect(append), Word(path)];
    EchoToTokens(arg, text, target, path, append);
    EchoParse(ts, text, path, append);
    var c := Command(["echo", text], Some(Target(path, append)));
    assert c.words[1..] == [text];
    assert EchoOutput([text]) == Some(text + "\n");
  }

  /** `echo -n > TARGET` empties the file. */
  lemma ExecEchoEmpty(fs: Files, target: string, path: string)
    requires ScansAs(target, path)
    ensures Exec(fs, EchoTo("-n", false, target)) == Some(fs[path := ""])
  {
    var ts := [Word("echo"), Word("-n"), Redirect(false), Word(path)];
    PlainScansAs("-n");
    EchoToTokens("-n", "-n", target, path, false);
    EchoParse(ts, "-n", path, false);
    var c := Command(["echo", "-n"], Some(Target(path, false)));
    assert c.words[1..] == ["-n"];
    assert EchoOutput(["-n"]) == Some([]);
  }

  /** A three-word command other than `echo` leaves every file as it was. */
  lemma ExecOtherCommand(fs: Files, w1: string, t1: string, w2: string, t2: string, w3: string, t3: string)
    requires ScansAs(w1, t1) && ScansAs(w2, t2) && ScansAs(w3, t3)
    requires t1 != "echo"
    ensures Exec(fs, w1 + " " + w2 + " " + w3) == Some(fs)
  {
    var r1 := w2 + " " + w3;
    var line := w1 + " " + r1;
    assert line == w1 + " " + w2 + " " + w3;
    TokensLast(w3, t3);
    TokensWordThen(w2, t2, w3);
    TokensWordThen(w1, t1, r1);
    var ts := [Word(t1), Word(t2), Word(t3)];
    assert [Word(t1)] + ([Word(t2)] + [Word(t3)]) == ts;
    var ws := WordTexts(ts);
    assert ws.Some? && ws.value[0] == t1;
  }

  lemma ExecSingle(fs: Files, cmd: string, fs': Files)
    requires Exec(fs, cmd) == Some(fs')
    ensures ExecBatch(fs, [cmd]) == Some(fs')
  {
    ExecBatchCons(fs, [cmd], fs');
    assert [cmd][1..] == [];
  }

  lemma WriteAppended(fs: Files, path: string, before: string, out: string)
    ensures WriteTo(fs[path := before], Target(path, true), out) == fs[path := before + out]
  {
  }

  lemma WriteTruncates(fs: Files, path: string, out: string)
    ensures WriteTo(fs, Target(path, false), out) == fs[path := out]
  {
  }
}

=== FILE: text.dfy ===
/** Kotlin string primitives the view models rely on: `Char.isWhitespace`,
    `String.trim`, `String.isBlank`, `indexOf` and `joinToString`. Strings are
    sequences of Unicode scalar values; the lone surrogates a JVM string can
    hold are not represented. */
module Text {

  datatype Option<+T> = None | Some(value: T)

  /** Kotlin's `Char.isWhitespace()` on the JVM: `Character.isWhitespace(c) ||
      Character.isSpaceChar(c)`. That is the ASCII controls TAB..CR and FS..US,
      every Unicode space separator (no-break spaces included) and the line and
      paragraph separators. */
  predicate IsWhitespace(c: char) {
    var n := c as int;
    || (0x09 <= n <= 0x0D)
    || (0x1C <= n <= 0x20)
    || n == 0xA0 || n == 0x1680
    || (0x2000 <= n <= 0x200A)
    || n == 0x2028 || n == 0x2029 || n == 0x202F || n == 0x205F || n == 0x3000
  }

  /** Kotlin's `isBlank()`: empty or made only of whitespace. */
  predicate IsBlank(s: string) {
    forall i :: 0 <= i < |s| ==> IsWhitespace(s[i])
  }

  /** No whitespace at either end: what `trim()` produces. */
  predicate Trimmed(s: string) {
    s == [] || (!IsWhitespace(s[0]) && !IsWhitespace(s[|s| - 1]))
  }

  /** The leading whitespace removed: `r` is the suffix of `s` that starts at
      its first non-whitespace character. */
  function TrimStart(s: string): (r: string)
    ensures |r| <= |s| && r == s[|s| - |r|..]
    ensures IsBlank(s[..|s| - |r|])
    ensures r == [] || !IsWhitespace(r[0])
    decreases |s|
  {
    if s == [] || !IsWhitespace(s[0]) then s
    else
      var r := TrimStart(s[1..]);
      assert s[..|s| - |r|] == [s[0]] + s[1..][..|s| - 1 - |r|];
      assert s[|s| - |r|..] == s[1..][|s| - 1 - |r|..];
      r
  }

  /** The trailing whitespace removed: `r` is the prefix of `s` that ends at
      its last non-whitespace character. */
  function TrimEnd(s: string): (r: string)
    ensures |r| <= |s| && r == s[..|r|]
    ensures IsBlank(s[|r|..])
    ensures r == [] || !IsWhitespace(r[|r| - 1])
    decreases |s|
  {
    if s == [] || !IsWhitespace(s[|s| - 1]) then s
    else
      var r := TrimEnd(s[..|s| - 1]);
      assert s[|r|..] == s[..|s| - 1][|r|..] + [s[|s| - 1]];
      assert s[..|r|] == s[..|s| - 1][..|r|];
      r
  }

  /** Both ends stripped: nothing is left exactly when `s` was blank. */
  lemma TrimBothEmpty(s: string)
    ensures TrimEnd(TrimStart(s)) == [] <==> IsBlank(s)
  {
    var t := TrimStart(s);
    if TrimEnd(t) == [] {
      assert t == [] by { assert t[..0] == TrimEnd(t); }
      assert s == s[..|s| - |t|];
    }
  }

  lemma TrimBothTrimmed(s: string)
    ensures Trimmed(TrimEnd(TrimStart(s)))
  {
    var t := TrimStart(s);
    var r := TrimEnd(t);
    assert r != [] ==> r[0] == t[0];
  }

  /** Kotlin's `trim()`. */
  function Trim(s: string): (r: string)
    ensures Trimmed(r)
    ensures |r| <= |s|
    ensures r == [] <==> IsBlank(s)
    ensures Trimmed(s) ==> r == s
  {
    TrimBothEmpty(s);
    TrimBothTrimmed(s);
    TrimEnd(TrimStart(s))
  }

  /** `trim()` is idempotent. */
  lemma TrimIdempotent(s: string)
    ensures Trim(Trim(s)) == Trim(s)
  {
  }

  /** Number of leading whitespace characters; the whole length for a blank
      string (Kotlin's private `indentWidth` used by `trimIndent`). */
  function IndentWidth(s: string): (r: nat)
    ensures r <= |s|
    ensures IsBlank(s[..r])
    ensures r < |s| ==> !IsWhitespace(s[r])
    decreases |s|
  {
    if s == [] || !IsWhitespace(s[0]) then 0
    else
      var k := IndentWidth(s[1..]);
      assert s[..k + 1] == [s[0]] + s[1..][..k];
      k + 1
  }

  /** Kotlin's `drop(n)`: the string without its first `n` characters, or the
      empty string when it is shorter. */
  function Drop(s: string, n: nat): string {
    if n <= |s| then s[n..] else []
  }

  /** Kotlin's `indexOf(c)` with "absent" reported as `|s|`. */
  function IndexOf(s: string, c: char): (r: nat)
    ensures r <= |s|
    ensures r < |s| ==> s[r] == c
    ensures forall i :: 0 <= i < r ==> s[i] != c
    decreases |s|
  {
    if s == [] then 0
    else if s[0] == c then 0
    else 1 + IndexOf(s[1..], c)
  }

  /** Kotlin's `joinToString(sep)`. */
  function JoinSep(parts: seq<string>, sep: string): string
    decreases |parts|
  {
    if parts == [] then []
    else if |parts| == 1 then parts[0]
    else parts[0] + sep + JoinSep(parts[1..], sep)
  }

  /** Joining introduces no character that neither the parts nor the
      separator contain. */
  lemma {:induction false} JoinSepAvoids(parts: seq<string>, sep: string, c: char)
    requires c !in sep
    requires forall i :: 0 <= i < |parts| ==> c !in parts[i]
    ensures c !in JoinSep(parts, sep)
    decreases |parts|
  {
    if |parts| > 1 {
      JoinSepAvoids(parts[1..], sep, c);
      assert c !in parts[0];
    }
  }

  /** `n` spaces. */
  function Spaces(n: nat): (r: string)
    ensures |r| == n
    ensures forall i :: 0 <= i < n ==> r[i] == ' '
  {
    seq(n, _ => ' ')
  }

  /** A run of spaces followed by a character that is not whitespace has
      exactly that run as its indent. */
  lemma {:induction false} IndentAfterSpaces(n: nat, t: string)
    requires t != [] && !IsWhitespace(t[0])
    ensures IndentWidth(Spaces(n) + t) == n
    decreases n
  {
    if n > 0 {
      var s := Spaces(n) + t;
      assert s[1..] == Spaces(n - 1) + t;
      IndentAfterSpaces(n - 1, t);
    } else {
      assert Spaces(0) + t == t;
    }
  }
}

=== FILE: uname_config.dfy ===
/** The six spoofed `uname` fields shared by both view models: the native
    field codes 0x1001..0x1006, the `UnameConfig` record, and the
    `key=value` line format with its left-fold parser (the bodies of
    `loadUnameConfigData` in UnameViewModel.kt and HideViewModel.kt). */
module Uname {
  import opened Text
  import opened Lines

  datatype Field = Sysname | Nodename | Release | Version | Machine | Domainname

  /** The fixed order in which the fields are written. */
  const AllFields: seq<Field> := [Sysname, Nodename, Release, Version, Machine, Domainname]

  /** The native bridge's field identifiers (`UNAME_SYSNAME` .. `UNAME_DOMAINNAME`). */
  function Code(f: Field): int {
    match f
    case Sysname => 0x1001
    case Nodename => 0x1002
    case Release => 0x1003
    case Version => 0x1004
    case Machine => 0x1005
    case Domainname => 0x1006
  }

  /** The `when (field)` dispatch: which field a code names, if any. */
  function FieldOf(code: int): (r: Option<Field>)
    ensures r.Some? <==> 0x1001 <= code <= 0x1006
  {
    if code == 0x1001 then Some(Sysname)
    else if code == 0x1002 then Some(Nodename)
    else if code == 0x1003 then Some(Release)
    else if code == 0x1004 then Some(Version)
    else if code == 0x1005 then Some(Machine)
    else if code == 0x1006 then Some(Domainname)
    else None
  }

  /** Codes and fields are in one-to-one correspondence. */
  lemma FieldCodeBijection(f: Field, code: int)
    ensures FieldOf(code) == Some(f) <==> Code(f) == code
  {
  }

  /** The key a field is stored under in the config file. */
  function Key(f: Field): string {
    match f
    case Sysname => "sysname"
    case Nodename => "nodename"
    case Release => "release"
    case Version => "version"
    case Machine => "machine"
    case Domainname => "domainname"
  }

  /** No key holds a quote or a backslash. */
  lemma KeysAvoid(ch: char)
    requires ch == '\'' || ch == '\\'
    ensures forall f :: ch !in Key(f)
  {
    forall f ensures ch !in Key(f) {
      var k := Key(f);
      forall i | 0 <= i < |k| ensures k[i] != ch {
        assert k[i] == '_' || 'a' <= k[i] <= 'z';
      }
    }
  }

  /** The parser's `when (key)` dispatch. */
  function FieldOfKey(key: string): Option<Field> {
    if key == "sysname" then Some(Sysname)
    else if key == "nodename" then Some(Nodename)
    else if key == "release" then Some(Release)
    else if key == "version" then Some(Version)
    else if key == "machine" then Some(Machine)
    else if key == "domainname" then Some(Domainname)
    else None
  }

  /** Keys and fields are in one-to-one correspondence; any other key is
      unknown. */
  lemma FieldKeyBijection(f: Field, key: string)
    ensures FieldOfKey(key) == Some(f) <==> Key(f) == key
  {
  }

  datatype UnameConfig = UnameConfig(
    sysname: string, nodename: string, release: string,
    version: string, machine: string, domainname: string)
  {
    function Get(f: Field): string {
      match f
      case Sysname => sysname
      case Nodename => nodename
      case Release => release
      case Version => version
      case Machine => machine
      case Domainname => domainname
    }

    /** The data class `copy` with one field replaced. */
    function Set(f: Field, v: string): (r: UnameConfig)
      ensures r.Get(f) == v
      ensures forall g :: g != f ==> r.Get(g) == Get(g)
    {
      match f
      case Sysname => this.(sysname := v)
      case Nodename => this.(nodename := v)
      case Release => this.(release := v)
      case Version => this.(version := v)
      case Machine => this.(machine := v)
      case Domainname => this.(domainname := v)
    }
  }

  /** `UnameConfig()`: every field empty, meaning "no override". */
  const Empty := UnameConfig("", "", "", "", "", "")

  /** Two configs that agree on every field are the same config. */
  lemma ConfigExt(a: UnameConfig, b: UnameConfig)
    requires forall f :: a.Get(f) == b.Get(f)
    ensures a == b
  {
    assert a.Get(Sysname) == b.Get(Sysname);
    assert a.Get(Nodename) == b.Get(Nodename);
    assert a.Get(Release) == b.Get(Release);
    assert a.Get(Version) == b.Get(Version);
    assert a.Get(Machine) == b.Get(Machine);
    assert a.Get(Domainname) == b.Get(Domainname);
  }

  /** The `when (field)` assignment: the field the code names gets `v`; an
      unknown code changes nothing. */
  function SetByCode(c: UnameConfig, code: int, v: string): (r: UnameConfig)
    ensures forall f :: r.Get(f) == if FieldOf(code) == Some(f) then v else c.Get(f)
  {
    match FieldOf(code)
    case None => c
    case Some(f) => c.Set(f, v)
  }

  /** The current value of the field a code names, `""` for an unknown code. */
  function ValueByCode(c: UnameConfig, code: int): (r: string)
    ensures FieldOf(code).None? ==> r == ""
    ensures FieldOf(code).Some? ==> r == c.Get(FieldOf(code).value)
  {
    match FieldOf(code)
    case None => ""
    case Some(f) => c.Get(f)
  }

  /** Reading a code back after setting it gives the value set, for a known
      code; an unknown code reads as `""` whatever was set. */
  lemma ValueAfterSet(c: UnameConfig, code: int, v: string)
    ensures ValueByCode(SetByCode(c, code, v), code) == if FieldOf(code).Some? then v else ""
  {
  }

  // ---------------------------------------------------------------------
  // Parsing
  // ---------------------------------------------------------------------

  datatype Entry = Entry(key: string, value: string)

  /** One line: skipped if blank or without `=`; otherwise split at the
      first `=` and both halves trimmed. */
  function ParseLine(line: string): (r: Option<Entry>)
    ensures r.Some? <==> !IsBlank(line) && '=' in line
    ensures r.Some? ==> Trimmed(r.value.key) && Trimmed(r.value.value) && '=' !in r.value.key
  {
    if !IsBlank(line) && '=' in line then
      var i := IndexOf(line, '=');
      var key := Trim(line[..i]);
      Some(Entry(key, Trim(line[i + 1..])))
    else None
  }

  /** Kotlin's `split("=", limit = 2)`: only the first `=` separates key from
      value; later ones belong to the value. */
  lemma SplitAtFirstEquals(k: string, v: string)
    requires '=' !in k
    ensures ParseLine(k + "=" + v) == Some(Entry(Trim(k), Trim(v)))
  {
    var line := k + "=" + v;
    assert line[|k|] == '=';
    assert !IsWhitespace(line[|k|]);
    var i := IndexOf(line, '=');
    assert i == |k|;
    assert line[..i] == k;
    assert line[i + 1..] == v;
  }

  /** One step of the fold: a recognised `key=value` entry overwrites its
      field, anything else leaves the config as it was. */
  function ApplyEntry(c: UnameConfig, e: Option<Entry>): UnameConfig {
    match e
    case None => c
    case Some(Entry(key, value)) =>
      match FieldOfKey(key)
      case None => c
      case Some(f) => c.Set(f, value)
  }

  function ApplyLine(c: UnameConfig, line: string): UnameConfig {
    ApplyEntry(c, ParseLine(line))
  }

  /** The whole file: a left fold of `ApplyLine` from the empty config. */
  function Parse(lines: seq<string>): UnameConfig
    decreases |lines|
  {
    if lines == [] then Empty
    else ApplyLine(Parse(lines[..|lines| - 1]), lines[|lines| - 1])
  }

  lemma ParseSnoc(lines: seq<string>, line: string)
    ensures Parse(lines + [line]) == ApplyLine(Parse(lines), line)
  {
    assert (lines + [line])[..|lines|] == lines;
  }

  /** The independent reading of the format: the value of a field is the
      value on the LAST line carrying its key, if any. */
  function LastValue(lines: seq<string>, f: Field): Option<string>
    decreases |lines|
  {
    if lines == [] then None
    else
      var e := ParseLine(lines[|lines| - 1]);
      if e.Some? && e.value.key == Key(f) then Some(e.value.value)
      else LastValue(lines[..|lines| - 1], f)
  }

  lemma KeyInjective(f: Field, g: Field)
    requires Key(f) == Key(g)
    ensures f == g
  {
    FieldKeyBijection(f, Key(f));
    FieldKeyBijection(g, Key(g));
  }

  /** What one step does to one field. */
  lemma ApplyEntryGet(c: UnameConfig, e: Option<Entry>, f: Field)
    ensures ApplyEntry(c, e).Get(f) == if e.Some? && e.value.key == Key(f) then e.value.value else c.Get(f)
  {
    if e.Some? {
      var key := e.value.key;
      match FieldOfKey(key)
      case None =>
        FieldKeyBijection(f, key);
      case Some(g) =>
        FieldKeyBijection(g, key);
        if Key(f) == key {
          KeyInjective(f, g);
        }
    }
  }

  /** The value a field ends up with: the one found, or empty. */
  function ValueOr(o: Option<string>): string {
    match o
    case None => ""
    case Some(v) => v
  }

  /** Last occurrence wins, every unrecognised line is ignored, and a field
      no line mentions stays empty. */
  lemma {:induction false} ParseLastWins(lines: seq<string>, f: Field)
    ensures Parse(lines).Get(f) == ValueOr(LastValue(lines, f))
    decreases |lines|
  {
    if lines != [] {
      var prefix := lines[..|lines| - 1];
      var last := lines[|lines| - 1];
      ParseLastWins(prefix, f);
      ApplyEntryGet(Parse(prefix), ParseLine(last), f);
    }
  }

  lemma ParseLastWinsAll(lines: seq<string>)
    ensures forall f :: Parse(lines).Get(f) == ValueOr(LastValue(lines, f))
  {
    forall f ensures Parse(lines).Get(f) == ValueOr(LastValue(lines, f)) {
      ParseLastWins(lines, f);
    }
  }

  /** A line the parser does not recognise (blank, without `=`, or with an
      unknown key) changes nothing. */
  lemma ParseIgnores(lines: seq<string>, line: string)
    requires ParseLine(line).None? || FieldOfKey(ParseLine(line).value.key).None?
    ensures Parse(lines + [line]) == Parse(lines)
  {
    ParseSnoc(lines, line);
  }

  // ---------------------------------------------------------------------
  // The stored form
  // ---------------------------------------------------------------------

  /** `key=value`. */
  function EntryLine(f: Field, v: string): string {
    Key(f) + "=" + v
  }

  /** The six lines, in the fixed order. */
  function ConfigLines(c: UnameConfig): (r: seq<string>)
    ensures |r| == 6
  {
    [ EntryLine(Sysname, c.sysname), EntryLine(Nodename, c.nodename),
      EntryLine(Release, c.release), EntryLine(Version, c.version),
      EntryLine(Machine, c.machine), EntryLine(Domainname, c.domainname) ]
  }

  /** A value the line format can carry unchanged: no surrounding whitespace
      (the parser trims) and no line terminator (the reader splits). */
  predicate Storable(v: string) {
    Trimmed(v) && IsLine(v)
  }

  predicate StorableConfig(c: UnameConfig) {
    forall f :: Storable(c.Get(f))
  }

  lemma ApplyKnownEntry(c: UnameConfig, key: string, value: string, f: Field)
    requires FieldOfKey(key) == Some(f)
    ensures ApplyEntry(c, Some(Entry(key, value))) == c.Set(f, value)
  {
  }

  lemma KeyShape(f: Field)
    ensures Trimmed(Key(f)) && '=' !in Key(f)
  {
  }

  /** A stored line parses to its own key and value. */
  lemma EntryLineParses(f: Field, v: string)
    requires Trimmed(v)
    ensures ParseLine(EntryLine(f, v)) == Some(Entry(Key(f), v))
  {
    KeyShape(f);
    SplitAtFirstEquals(Key(f), v);
  }

  lemma ParseEntryLine(c: UnameConfig, f: Field, v: string)
    requires Trimmed(v)
    ensures ApplyLine(c, EntryLine(f, v)) == c.Set(f, v)
  {
    EntryLineParses(f, v);
    FieldKeyBijection(f, Key(f));
    ApplyKnownEntry(c, Key(f), v, f);
  }

  lemma ParseStep(ls: seq<string>, i: nat, acc: UnameConfig, f: Field, v: string)
    requires i < |ls| && Parse(ls[..i]) == acc
    requires ls[i] == EntryLine(f, v) && Trimmed(v)
    ensures Parse(ls[..i + 1]) == acc.Set(f, v)
  {
    ParsePrefixStep(ls, i);
    ParseEntryLine(acc, f, v);
  }

  lemma ParsePrefixStep(ls: seq<string>, i: nat)
    requires i < |ls|
    ensures Parse(ls[..i + 1]) == ApplyLine(Parse(ls[..i]), ls[i])
  {
    assert ls[..i + 1] == ls[..i] + [ls[i]];
    ParseSnoc(ls[..i], ls[i]);
  }

  lemma ConfigLinesIndex(c: UnameConfig, k: nat)
    requires k < 6
    ensures ConfigLines(c)[k] == EntryLine(AllFields[k], c.Get(AllFields[k]))
  {
    ConfigLinesAt(c);
  }

  lemma ConfigLinesAt(c: UnameConfig)
    ensures ConfigLines(c)[0] == EntryLine(Sysname, c.sysname)
    ensures ConfigLines(c)[1] == EntryLine(Nodename, c.nodename)
    ensures ConfigLines(c)[2] == EntryLine(Release, c.release)
    ensures ConfigLines(c)[3] == EntryLine(Version, c.version)
    ensures ConfigLines(c)[4] == EntryLine(Machine, c.machine)
    ensures ConfigLines(c)[5] == EntryLine(Domainname, c.domainname)
  {
  }

  /** Setting every field in the fixed order rebuilds the config. */
  lemma SetAllFields(c: UnameConfig)
    ensures Empty.Set(Sysname, c.sysname).Set(Nodename, c.nodename).Set(Release, c.release)
              .Set(Version, c.version).Set(Machine, c.machine).Set(Domainname, c.domainname) == c
  {
  }

  /** Round trip of the line format: parsing the six lines gives back the
      config, even when values contain `=` or quotes. */
  lemma ParseConfigLines(c: UnameConfig)
    requires forall f :: Trimmed(c.Get(f))
    ensures Parse(ConfigLines(c)) == c
  {
    var ls := ConfigLines(c);
    ConfigLinesAt(c);
    assert ls[..0] == [];
    assert Trimmed(c.Get(Sysname));
    ParseStep(ls, 0, Empty, Sysname, c.sysname);
    var c1 := Empty.Set(Sysname, c.sysname);
    assert Trimmed(c.Get(Nodename));
    ParseStep(ls, 1, c1, Nodename, c.nodename);
    var c2 := c1.Set(Nodename, c.nodename);
    assert Trimmed(c.Get(Release));
    ParseStep(ls, 2, c2, Release, c.release);
    var c3 := c2.Set(Release, c.release);
    assert Trimmed(c.Get(Version));
    ParseStep(ls, 3, c3, Version, c.version);
    var c4 := c3.Set(Version, c.version);
    assert Trimmed(c.Get(Machine));
    ParseStep(ls, 4, c4, Machine, c.machine);
    var c5 := c4.Set(Machine, c.machine);
    assert Trimmed(c.Get(Domainname));
    ParseStep(ls, 5, c5, Domainname, c.domainname);
    assert ls[..6] == ls;
    SetAllFields(c);
  }

  /** The stored lines carry no terminator when the values carry none. */
  lemma ConfigLinesAreLines(c: UnameConfig)
    requires StorableConfig(c)
    ensures AllLines(ConfigLines(c))
  {
    var ls := ConfigLines(c);
    forall i | 0 <= i < 6 ensures IsLine(ls[i]) {
      var f := AllFields[i];
      var v := c.Get(f);
      assert Storable(v);
      assert ls[i] == Key(f) + "=" + v;
      forall j | 0 <= j < |ls[i]| ensures !IsTerminator(ls[i][j]) {
        if j > |Key(f)| {
          assert ls[i][j] == v[j - |Key(f)| - 1];
        }
      }
    }
  }

  /** Reading a file written as the six lines, one per row, gives back the
      config. */
  lemma ReadBackConfig(c: UnameConfig)
    requires StorableConfig(c)
    ensures Parse(ReadLines(Terminated(ConfigLines(c)))) == c
  {
    ConfigLinesAreLines(c);
    ReadLinesTerminated(ConfigLines(c));
    ParseConfigLines(c);
  }
}

=== FILE: uname_view_model.dfy ===
/** `UnameViewModel`: the screen state for the six spoofed uname fields, the
    file it persists them to (eight shell commands run as root), and the
    set/clear transitions driven by the native bridge's result code. Each
    coroutine is modelled by its final effect: the new state, the native
    calls made, and the shell job submitted, if any. */
module UnameViewModel {
  import opened Text
  import opened Lines
  import opened Decimal
  import opened PosixShell
  import opened Uname
  import opened Bridge

  /** `UNAME_CONFIG_FILE.absolutePath` and the application's uid. */
  datatype Env = Env(path: string, uid: int)

  datatype State = State(config: UnameConfig, isLoading: bool, errorMessage: Option<string>)

  /** The effect of one transition. */
  datatype Step = Step(state: State, calls: seq<Call>, job: Option<seq<string>>)

  // ---------------------------------------------------------------------
  // saveUnameConfigToFile
  // ---------------------------------------------------------------------

  /** `echo 'key=<escaped value>' > '<escaped path>'` (or `>>`). */
  function EchoEntry(f: Field, v: string, append: bool, path: string): string {
    EchoTo("'" + Key(f) + "=" + Escape(v) + "'", append, "'" + Escape(path) + "'")
  }

  /** `chown uid:uid '<escaped path>'`. */
  function OwnerCommand(path: string, uid: int): string {
    "chown " + IntToString(uid) + ":" + IntToString(uid) + " '" + Escape(path) + "'"
  }

  /** `chmod 600 '<escaped path>'`. */
  function ModeCommand(path: string): string {
    "chmod 600 '" + Escape(path) + "'"
  }

  /** The eight commands of one save, in order: the six fields (the first
      truncating, the rest appending), then owner, then mode. */
  function SaveCommands(c: UnameConfig, path: string, uid: int): (r: seq<string>)
    ensures |r| == 8
    ensures r[0] == EchoEntry(AllFields[0], c.Get(AllFields[0]), false, path)
    ensures forall k :: 1 <= k < 6 ==> r[k] == EchoEntry(AllFields[k], c.Get(AllFields[k]), true, path)
    ensures r[6] == OwnerCommand(path, uid) && r[7] == ModeCommand(path)
  {
    [ EchoEntry(Sysname, c.sysname, false, path),
      EchoEntry(Nodename, c.nodename, true, path),
      EchoEntry(Release, c.release, true, path),
      EchoEntry(Version, c.version, true, path),
      EchoEntry(Machine, c.machine, true, path),
      EchoEntry(Domainname, c.domainname, true, path),
      OwnerCommand(path, uid),
      ModeCommand(path) ]
  }

  /** Escaping the value alone escapes the whole `key=value` word. */
  lemma QuotedEntry(f: Field, v: string)
    ensures "'" + Key(f) + "=" + Escape(v) + "'" == QuoteWord(EntryLine(f, v))
  {
    KeysAvoid('\'');
    assert '\'' !in Key(f) + "=";
    QuotedAfterPlain(Key(f) + "=", v);
  }

  lemma QuotedAfterPlain(k: string, v: string)
    requires '\'' !in k
    ensures "'" + k + Escape(v) + "'" == QuoteWord(k + v)
  {
    EscapePlainPrefix(k, v);
    Quote3(k, Escape(v));
  }

  lemma EscapePlainPrefix(k: string, v: string)
    requires '\'' !in k
    ensures Escape(k + v) == k + Escape(v)
  {
    CountAbsent(k, '\'');
    EscapeAppend(k, v);
  }

  lemma Quote3(a: string, b: string)
    ensures "'" + a + b + "'" == "'" + (a + b) + "'"
  {
  }

  lemma EntryLineText(f: Field, v: string)
    requires NoBackslash(v)
    ensures !EchoOptions(EntryLine(f, v)) && NoBackslash(EntryLine(f, v))
  {
    var l := EntryLine(f, v);
    assert l[0] == Key(f)[0];
    assert forall i :: |Key(f)| < i < |l| ==> l[i] == v[i - |Key(f)| - 1];
  }

  /** One `echo` line of the save writes its `key=value` line. */
  lemma ExecEchoEntry(fs: Files, f: Field, v: string, append: bool, path: string)
    requires NoBackslash(v)
    ensures Exec(fs, EchoEntry(f, v, append, path)) == Some(WriteTo(fs, Target(path, append), EntryLine(f, v) + "\n"))
  {
    QuotedEntry(f, v);
    QuotedScansAs(EntryLine(f, v));
    QuotedScansAs(path);
    EntryLineText(f, v);
    ExecEchoRedirect(fs, QuoteWord(EntryLine(f, v)), EntryLine(f, v), QuoteWord(path), path, append);
  }

  /** The first echo line truncates the file to the first config line. */
  lemma EchoFirst(fs: Files, c: UnameConfig, path: string, uid: int)
    requires NoBackslash(c.sysname)
    ensures ExecBatch(fs, SaveCommands(c, path, uid)[..1]) == Some(fs[path := Terminated(ConfigLines(c)[..1])])
  {
    var r := SaveCommands(c, path, uid);
    var ls := ConfigLines(c);
    var line := EntryLine(Sysname, c.sysname);
    ConfigLinesIndex(c, 0);
    assert r[0] == EchoEntry(Sysname, c.sysname, false, path);
    ExecEchoEntry(fs, Sysname, c.sysname, false, path);
    WriteTruncates(fs, path, line + "\n");
    ExecSingle(fs, r[0], fs[path := line + "\n"]);
    assert r[..1] == [r[0]];
    TerminatedOne(ls[..1]);
  }

  /** Each further echo line appends its config line. */
  lemma EchoNext(fs: Files, c: UnameConfig, path: string, uid: int, k: nat)
    requires 2 <= k <= 6
    requires NoBackslash(c.Get(AllFields[k - 1]))
    requires ExecBatch(fs, SaveCommands(c, path, uid)[..k - 1]) == Some(fs[path := Terminated(ConfigLines(c)[..k - 1])])
    ensures ExecBatch(fs, SaveCommands(c, path, uid)[..k]) == Some(fs[path := Terminated(ConfigLines(c)[..k])])
  {
    var r := SaveCommands(c, path, uid);
    var ls := ConfigLines(c);
    var f := AllFields[k - 1];
    var before := Terminated(ls[..k - 1]);
    var line := ls[k - 1] + "\n";
    var after := fs[path := before + line];
    ConfigLinesIndex(c, k - 1);
    assert r[k - 1] == EchoEntry(f, c.Get(f), true, path);
    AppendOneEcho(fs, path, before, f, c.Get(f), r[k - 1]);
    assert r[..k] == r[..k - 1] + [r[k - 1]];
    ExecBatchAppend(fs, r[..k - 1], [r[k - 1]]);
    SnocPrefix(ls, k);
  }

  lemma AppendOneEcho(fs: Files, path: string, before: string, f: Field, v: string, cmd: string)
    requires NoBackslash(v) && cmd == EchoEntry(f, v, true, path)
    ensures ExecBatch(fs[path := before], [cmd]) == Some(fs[path := before + (EntryLine(f, v) + "\n")])
  {
    var fsk := fs[path := before];
    ExecEchoEntry(fsk, f, v, true, path);
    WriteAppended(fs, path, before, EntryLine(f, v) + "\n");
    ExecSingle(fsk, cmd, fs[path := before + (EntryLine(f, v) + "\n")]);
  }

  /** The first `k` echo lines leave exactly the first `k` config lines in the
      file. */
  lemma {:induction false} EchoesWrite(fs: Files, c: UnameConfig, path: string, uid: int, k: nat)
    requires 1 <= k <= 6
    requires forall f :: NoBackslash(c.Get(f))
    ensures ExecBatch(fs, SaveCommands(c, path, uid)[..k]) == Some(fs[path := Terminated(ConfigLines(c)[..k])])
    decreases k
  {
    if k == 1 {
      assert NoBackslash(c.Get(Sysname));
      EchoFirst(fs, c, path, uid);
    } else {
      EchoesWrite(fs, c, path, uid, k - 1);
      assert NoBackslash(c.Get(AllFields[k - 1]));
      EchoNext(fs, c, path, uid, k);
    }
  }

  lemma UidWord(uid: int)
    ensures PlainWord(IntToString(uid) + ":" + IntToString(uid))
  {
    var u := IntToString(uid);
    var w := u + ":" + u;
    forall i | 0 <= i < |w|
      ensures !IsBlankChar(w[i]) && w[i] != '>' && w[i] != '\'' && w[i] != '\\' && !IsUnsupported(w[i])
    {
      if i < |u| {
        assert w[i] == u[i];
      } else if i > |u| {
        assert w[i] == u[i - |u| - 1];
      }
    }
  }

  lemma ExecOwner(fs: Files, path: string, uid: int)
    ensures Exec(fs, OwnerCommand(path, uid)) == Some(fs)
  {
    var u := IntToString(uid) + ":" + IntToString(uid);
    var q := QuoteWord(path);
    UidWord(uid);
    PlainScansAs("chown");
    PlainScansAs(u);
    QuotedScansAs(path);
    OwnerShape(path, uid);
    ExecOtherCommand(fs, "chown", "chown", u, u, q, path);
  }

  lemma OwnerShape(path: string, uid: int)
    ensures OwnerCommand(path, uid) == "chown" + " " + (IntToString(uid) + ":" + IntToString(uid)) + " " + QuoteWord(path)
  {
  }

  lemma ModeShape(path: string)
    ensures ModeCommand(path) == "chmod" + " " + "600" + " " + QuoteWord(path)
  {
  }

  lemma ExecMode(fs: Files, path: string)
    ensures Exec(fs, ModeCommand(path)) == Some(fs)
  {
    var q := QuoteWord(path);
    PlainScansAs("chmod");
    PlainScansAs("600");
    QuotedScansAs(path);
    ModeShape(path);
    ExecOtherCommand(fs, "chmod", "chmod", "600", "600", q, path);
  }

  /** `chown` and `chmod` change no file contents. */
  lemma TrailerKeepsFiles(fs: Files, path: string, uid: int)
    ensures ExecBatch(fs, [OwnerCommand(path, uid), ModeCommand(path)]) == Some(fs)
  {
    var b := [OwnerCommand(path, uid), ModeCommand(path)];
    ExecOwner(fs, path, uid);
    ExecMode(fs, path);
    ExecBatchCons(fs, b, fs);
    assert b[1..] == [ModeCommand(path)];
    ExecSingle(fs, ModeCommand(path), fs);
  }

  /** Running the save leaves exactly the six `key=value` lines in the file,
      whatever the path and whatever quotes the values contain, and touches
      no other file. */
  lemma SaveWritesConfig(fs: Files, c: UnameConfig, path: string, uid: int)
    requires forall f :: NoBackslash(c.Get(f))
    ensures ExecBatch(fs, SaveCommands(c, path, uid)) == Some(fs[path := Terminated(ConfigLines(c))])
  {
    var r := SaveCommands(c, path, uid);
    var ls := ConfigLines(c);
    EchoesWrite(fs, c, path, uid, 6);
    assert ls[..6] == ls;
    var fs6 := fs[path := Terminated(ls)];
    assert r == r[..6] + r[6..];
    ExecBatchAppend(fs, r[..6], r[6..]);
    assert r[6..] == [OwnerCommand(path, uid), ModeCommand(path)];
    TrailerKeepsFiles(fs6, path, uid);
  }

  // ---------------------------------------------------------------------
  // loadUnameConfigData
  // ---------------------------------------------------------------------

  datatype Loaded = Loaded(config: UnameConfig, files: Files)

  /** Reads the config file. A missing file is created empty; a missing,
      unreadable or failing file yields the all-empty config; otherwise the
      lines are folded. */
  function LoadUnameConfigData(fs: Files, path: string, canRead: bool, readFails: bool): (r: Loaded)
    ensures path !in fs ==> r.files == fs[path := ""]
    ensures path in fs ==> r.files == fs
    ensures !(path in fs && canRead && !readFails) ==> r.config == Empty
    ensures path in fs && canRead && !readFails ==>
      forall f :: r.config.Get(f) == ValueOr(LastValue(ReadLines(fs[path]), f))
  {
    if path !in fs then Loaded(Empty, fs[path := ""])
    else if !canRead || readFails then Loaded(Empty, fs)
    else
      ParseLastWinsAll(ReadLines(fs[path]));
      Loaded(Parse(ReadLines(fs[path])), fs)
  }

  /** A saved config is loaded back unchanged (values without surrounding
      whitespace, line terminators or backslashes; quotes and `=` are fine). */
  lemma SaveThenLoad(fs: Files, c: UnameConfig, env: Env)
    requires StorableConfig(c)
    requires forall f :: NoBackslash(c.Get(f))
    ensures ExecBatch(fs, SaveCommands(c, env.path, env.uid)).Some?
    ensures LoadUnameConfigData(ExecBatch(fs, SaveCommands(c, env.path, env.uid)).value, env.path, true, false).config == c
  {
    SaveWritesConfig(fs, c, env.path, env.uid);
    ReadBackConfig(c);
  }

  // ---------------------------------------------------------------------
  // Transitions
  // ---------------------------------------------------------------------

  /** `saveUnameConfigToFile` from state `st`. `fault` is the message of an
      `Exception` thrown inside the save's `try` block before the job is
      submitted; then no job runs and the error reports the exception. */
  function SaveConfig(st: State, env: Env, fault: Option<string>): (r: Step)
    ensures r.state.config == st.config && r.state.isLoading == st.isLoading && r.calls == []
    ensures fault.None? ==>
      r.job == Some(SaveCommands(st.config, env.path, env.uid)) && r.state.errorMessage == st.errorMessage
    ensures fault.Some? ==>
      r.job.None? && r.state.errorMessage == Some(Failure("save uname config", Raised(fault.value)))
  {
    match fault
    case None => Step(st, [], Some(SaveCommands(st.config, env.path, env.uid)))
    case Some(m) => Step(st.(errorMessage := Some(Failure("save uname config", Raised(m)))), [], None)
  }

  /** `saveUnameField(field, value)` with the bridge answering `o`. */
  function SaveUnameField(st: State, code: int, value: string, o: Outcome, env: Env, fault: Option<string>): (r: Step)
    ensures r.calls == [SpoofUnameSet(code, value)]
    ensures r.state.isLoading == st.isLoading
    ensures Succeeded(o) ==>
      (forall f :: r.state.config.Get(f) == if FieldOf(code) == Some(f) then value else st.config.Get(f))
    ensures Succeeded(o) && fault.None? ==>
      r.job == Some(SaveCommands(r.state.config, env.path, env.uid)) && r.state.errorMessage == st.errorMessage
    ensures Succeeded(o) && fault.Some? ==>
      r.job.None? && r.state.errorMessage == Some(Failure("save uname config", Raised(fault.value)))
    ensures !Succeeded(o) ==>
      r.state.config == st.config && r.job.None? && r.state.errorMessage == Some(Failure("save uname field", o))
  {
    var call := [SpoofUnameSet(code, value)];
    if Succeeded(o) then
      var s := SaveConfig(st.(config := SetByCode(st.config, code, value)), env, fault);
      s.(calls := call)
    else
      Step(st.(errorMessage := Some(Failure("save uname field", o))), call, None)
  }

  /** Whether clearing field `code` rewrites the file: only a known field
      that held something. */
  predicate ClearRewrites(c: UnameConfig, code: int)
  {
    FieldOf(code).Some? && c.Get(FieldOf(code).value) != ""
  }

  /** `clearUnameField(field)`: the file is rewritten only when the field
      held something before. */
  function ClearUnameField(st: State, code: int, o: Outcome, env: Env, fault: Option<string>): (r: Step)
    ensures r.calls == [SpoofUnameRemove(code)]
    ensures r.state.isLoading == st.isLoading
    ensures Succeeded(o) ==>
      (forall f :: r.state.config.Get(f) == if FieldOf(code) == Some(f) then "" else st.config.Get(f))
    ensures r.job.Some? <==> Succeeded(o) && ClearRewrites(st.config, code) && fault.None?
    ensures r.job.Some? ==> r.job == Some(SaveCommands(r.state.config, env.path, env.uid))
    ensures Succeeded(o) && !(ClearRewrites(st.config, code) && fault.Some?) ==>
      r.state.errorMessage == st.errorMessage
    ensures Succeeded(o) && ClearRewrites(st.config, code) && fault.Some? ==>
      r.state.errorMessage == Some(Failure("save uname config", Raised(fault.value)))
    ensures !Succeeded(o) ==>
      r.state.config == st.config && r.state.errorMessage == Some(Failure("clear uname field", o))
  {
    var call := [SpoofUnameRemove(code)];
    var removed := ValueByCode(st.config, code);
    if Succeeded(o) then
      var cleared := st.(config := SetByCode(st.config, code, ""));
      if removed != "" then
        var s := SaveConfig(cleared, env, fault);
        s.(calls := call)
      else Step(cleared, call, None)
    else
      Step(st.(errorMessage := Some(Failure("clear uname field", o))), call, None)
  }

  /** `loadConfig`: the fields are replaced by what the file holds, the
      error is reset and loading always ends. */
  function LoadConfig(st: State, fs: Files, env: Env, canRead: bool, readFails: bool): (r: (State, Files))
    ensures !r.0.isLoading && r.0.errorMessage.None?
    ensures r.0.config == LoadUnameConfigData(fs, env.path, canRead, readFails).config
    ensures r.1 == LoadUnameConfigData(fs, env.path, canRead, readFails).files
  {
    var d := LoadUnameConfigData(fs, env.path, canRead, readFails);
    (State(d.config, false, None), d.files)
  }

  /** `clearError`. */
  function ClearError(st: State): (r: State)
    ensures r.errorMessage.None?
    ensures r.config == st.config && r.isLoading == st.isLoading
  {
    st.(errorMessage := None)
  }

  // ---------------------------------------------------------------------
  // Properties across transitions
  // ---------------------------------------------------------------------

  /** After a successful set, the job leaves a file that loads back as the
      new state: the chosen field holds the new value, the others theirs. */
  lemma SavedFieldPersists(st: State, fs: Files, code: int, value: string, env: Env, f: Field)
    requires StorableConfig(st.config) && Storable(value)
    requires (forall g :: NoBackslash(st.config.Get(g))) && NoBackslash(value)
    requires FieldOf(code) == Some(f)
    ensures var r := SaveUnameField(st, code, value, Returned(0), env, None);
      && r.job.Some?
      && ExecBatch(fs, r.job.value).Some?
      && LoadConfig(st, ExecBatch(fs, r.job.value).value, env, true, false).0.config == r.state.config
      && r.state.config.Get(f) == value
  {
    var r := SaveUnameField(st, code, value, Returned(0), env, None);
    var c := r.state.config;
    assert forall g :: c.Get(g) == if g == f then value else st.config.Get(g);
    assert StorableConfig(c);
    SaveThenLoad(fs, c, env);
  }

  /** A second clear of the same field writes nothing and changes nothing. */
  lemma SecondClearWritesNothing(st: State, code: int, o: Outcome, env: Env, fault: Option<string>, fault2: Option<string>)
    requires Succeeded(o)
    ensures var r1 := ClearUnameField(st, code, o, env, fault);
      var r2 := ClearUnameField(r1.state, code, o, env, fault2);
      r2.job.None? && r2.state == r1.state
  {
    var r1 := ClearUnameField(st, code, o, env, fault);
    var r2 := ClearUnameField(r1.state, code, o, env, fault2);
    if FieldOf(code).Some? {
      assert r1.state.config.Get(FieldOf(code).value) == "";
    }
    assert forall g :: r2.state.config.Get(g) == r1.state.config.Get(g);
    ConfigExt(r2.state.config, r1.state.config);
  }

  /** A failed set or clear leaves the fields alone: dismissing its error
      restores the state exactly. */
  lemma FailureThenClearError(st: State, code: int, value: string, o: Outcome, env: Env, fault: Option<string>)
    requires !Succeeded(o) && st.errorMessage.None?
    ensures ClearError(SaveUnameField(st, code, value, o, env, fault).state) == st
    ensures ClearError(ClearUnameField(st, code, o, env, fault).state) == st
  {
  }

  /** The message of a failed set tells which code (or exception) caused it. */
  lemma SaveFailureNamesOutcome(st: State, code: int, value: string, o1: Outcome, o2: Outcome, env: Env, fault: Option<string>)
    requires !Succeeded(o1) && !Succeeded(o2)
    requires SaveUnameField(st, code, value, o1, env, fault).state.errorMessage
          == SaveUnameField(st, code, value, o2, env, fault).state.errorMessage
    ensures o1 == o2
  {
    FailureInjective("save uname field", o1, o2);
  }
}
